=== FILE: README.md ===
# mc-status-bot: a Dafny model of the launcher, the bot client and the help cog

The repository is a Discord bot that shows a Minecraft server's status. Around the
chat framework it has three pieces of plain sequential decision logic, and this
project models them as pure functions over small datatypes:

- **The launcher** (`run.py`). `main` is a retry loop. `Supervisor.Step` is one pass
  of `while tryagain:`, taking an abstract `Attempt`: the bot instance (if the
  constructor returned one), how the import, constructor or `run()` ended, and what
  the dependency installer would return. `Supervisor.Run` folds `Step` over a
  script of attempts. Python's control flow is written out: a `break` in `finally`
  overrides the `break`, `continue` or propagating exception left by an `except`
  clause. The start-up predicates (Python version floor, console encoding,
  free-disk warning) live in `SanityChecks`.
- **The bot client** (`bot.py`). `StatusBot` has the configuration checks of the
  `ServerStatus` constructor, the `init_ok`/`restart_signal` flags, the
  extension-loading loop of `setup_hook` and the origin string of `on_command`.
  `ErrorReplies` has the `on_command_error` chain: it maps an error kind to at
  most one reply. The chain is proved equal to a first-match table over a fixed
  priority order.
- **The help cog** (`cogs/help.py`). `Help` covers the one-line command format,
  the flat bot-help page (optionally sorted by name) and the walk of a
  space-separated command path through the command tree.

`Lifecycle` connects the two halves. It builds the launcher's `Attempt` from a
bot constructed by `StatusBot.NewBot`. With that, it proves that the launcher as
shipped starts the bot at most twice: `restart_signal` is always `None`, and the
only other way round the loop is the one `continue` after installing
dependencies.

Shared helpers: `Wrappers` (Option/Result), `Text` (ASCII case mapping, substring
test, `str.replace`, `str.split(" ")`, decimal rendering) and `StringOrder`
(Python's `str` ordering).

As shipped the restart signal is always falsy. A bot is then started at most
twice (`Lifecycle.ShippedBotAtMostTwoAttempts`), and exactly once unless its
first attempt fails with an ImportError, which installs the dependencies and
retries (`Lifecycle.ShippedBotOnceWithoutImportError`). A bot with a truthy
signal that always crashes in `run()` before becoming ready, with an ordinary
exception whose type name lacks "LoginFailure", is started four times, with
sleeps of 2, 4 and 6 seconds (`Supervisor.CrashingBotWithRestartSignal`). The
crash-loop guard `loops > 2` is checked before the increment. Other failures end
the run sooner, signal or not. A login failure stops after one attempt
(`Supervisor.LoginFailureStopsAtOnce`). A SyntaxError also stops after one
attempt, and an exception that is not an `Exception` escapes after one
(`Supervisor.Step`). A repeated ImportError stops on its second attempt. A bot that becomes
ready and keeps asking to restart is never given up on; its sleeps grow by two
seconds up to 60 (`Supervisor.ReadyBotKeepsRestarting`).

## Model

| member | source | states |
|---|---|---|
| Supervisor.Handle | run.py:176-201 | the `except` clauses: pip runs exactly on the first ImportError and the flag is only ever set; the install `continue` is pending exactly when pip ran and returned a falsy value; a clean return or an ordinary exception whose type name lacks "LoginFailure" falls through to `finally`; the exception propagates exactly for a BaseException or when pip cannot be imported; SyntaxError, a truthy install code, a second ImportError and a "LoginFailure" type name each leave their own `break` pending, and nothing else does |
| Supervisor.Backoff | run.py:218-221 | the sleep is `min(loops*2, 60)`: never above 60 seconds, and at least 2 once `loops >= 1` |
| Supervisor.Step | run.py:164-221 | pip runs iff this is the first ImportError, and the flag is never cleared; `finally` breaks iff the bot never became ready and `loops > 2`, otherwise `loops` grows by exactly one; the loop continues only through the install `continue` or a restart signal, which sleeps `min(loops*2, 60)` seconds; it sleeps and retries exactly when a clean return or ordinary exception comes with a restart signal and `finally` did not break, and stops for lack of a signal exactly when such an attempt has none; an exception escapes `main` exactly for a BaseException or an unimportable pip, unless `finally` breaks; SyntaxError, a "LoginFailure" type name, a second ImportError and a truthy install code all stop |
| Supervisor.Run | run.py:159-221 | over any script of attempts: at most one install per `main` call (none once the flag is set), every sleep between 2 and 60 seconds, and fewer sleeps than attempts once the loop has ended |
| Supervisor.NoRestartSignalAtMostTwoAttempts | run.py:180-216 | without a truthy restart signal the loop makes at most two attempts and never sleeps, and a script of two attempts always ends it |
| Supervisor.CrashLoopBound | run.py:203-211 | a bot that never reaches `init_ok` gets at most `4 - loops` attempts (one when `loops > 2`), whatever the restart signals say |
| Supervisor.CrashBudgetIsTight | run.py:203-221 | the crash-loop bound is reached: a bot that keeps crashing in `run()` before it is ready, each time with an ordinary exception whose type name lacks "LoginFailure", and keeps asking to restart gets exactly `4 - loops` attempts (one once `loops > 2`), runs no install, and the loop ends through the `finally` break |
| Supervisor.CrashBackoffSchedule | run.py:203-221 | the same run sleeps `min(2*(loops+1), 60)`, `min(2*(loops+2), 60)`, ... until `loops` passes 2, and stops with `loops` at 3 (unchanged when it was already past 2) and the install flag untouched |
| Supervisor.CrashingBotWithRestartSignal | run.py:203-221 | from a fresh loop, a bot that always crashes in `run()` before becoming ready, with an ordinary exception whose type name lacks "LoginFailure", and sets a restart signal is started exactly four times, sleeping 2, 4 and 6 seconds, and the loop ends through the `finally` break |
| Supervisor.ReadyBotKeepsRestarting | run.py:164-221 | a bot that becomes ready, returns or crashes with an ordinary exception, and always asks to restart is never stopped: every attempt is made, nothing is installed, `loops` grows by one per attempt and the i-th sleep is `min(2*(loops+i+1), 60)` |
| Supervisor.LoginFailureStopsAtOnce | run.py:196-199 | an exception whose type name contains "LoginFailure" is never retried, whatever the restart signal: one attempt, no sleep, and the run ends with the login break (or the `finally` break when that fires first) |
| Supervisor.OnceWithoutImportErrorOrRestart | run.py:176-216 | an attempt that is not an ImportError and carries no restart signal is the last one: one attempt, no install, the loop is over |
| Supervisor.ImportErrorThenRecovery | run.py:180-191 | an ImportError fixed by the installer (return 0 or None) is retried at once with no sleep and one install in total; when the second attempt is no ImportError and carries no restart signal, the loop ends after it |
| Supervisor.NoInstanceNeverSleeps | run.py:215-216 | with no bot instance (import failed or the constructor raised) the loop never sleeps and only the install `continue` goes round again |
| SanityChecks.PythonTooOld | run.py:95-97 | the tuple comparison `sys.version_info < (3, 8)` holds exactly when major < 3, or major is 3 and minor < 8 |
| SanityChecks.StripDashes | run.py:116 | the normalised encoding has no "-", is no longer than the input, and is unchanged when it had none |
| SanityChecks.StripDashesIsReplace | run.py:116 | dropping the dashes one by one is exactly `encoding.replace("-", "")`, so every other character is kept, in order |
| SanityChecks.NeedsUtf8Rewrap | run.py:114-117 | a "win" platform is always re-wrapped; elsewhere the console is re-wrapped exactly when the dash-free encoding does not spell "utf8" in any letter case |
| SanityChecks.EncodingUpperDashed | run.py:114-117 | "UTF-8" on Linux needs no re-wrap |
| SanityChecks.EncodingWindows | run.py:114-115 | on a "win" platform the console is re-wrapped whatever the encoding |
| SanityChecks.EncodingAscii | run.py:116 | "ascii" is re-wrapped |
| SanityChecks.LowDiskSpaceAsWritten | run.py:150-152 | as written, the warning fires exactly when fewer than `warnlimit_mb` units of 2048 bytes are free |
| SanityChecks.LowDiskSpaceAsWrittenMissesOneMiB | run.py:150-152 | as written, the threshold is 409600 bytes, so 1 MiB free raises no "less than 200MB" warning |
| SanityChecks.LowDiskSpaceIff | run.py:150-152 | the corrected test warns exactly when fewer than `warnlimit_mb` whole mebibytes are free |
| StatusBot.NewBot | bot.py:72-93 | construction fails iff the lower-cased server type is not java/bedrock or the refresh rate is below 30; the server type is checked first, each error carries the original value, and a built bot starts with `init_ok` false and no restart signal |
| StatusBot.ServerTypeOkIff | bot.py:80-81 | the server type is accepted exactly when it equals "java" or "bedrock" ignoring letter case |
| StatusBot.RefreshRateBoundary | bot.py:83-84 | 30 is accepted and 29 raises InvalidRefreshRate(29) |
| StatusBot.Apply | bot.py:182-184 | only `on_ready` sets `init_ok`, and no event changes the restart signal |
| StatusBot.ApplyAllFlags | bot.py:182-184 | after any events, `init_ok` holds iff it held before or `on_ready` fired, and the restart signal is unchanged |
| StatusBot.BotNeverRequestsRestart | bot.py:73 | a bot built by the constructor never has a truthy restart signal, whatever happens to it |
| StatusBot.Destination | bot.py:120-128 | the origin is "Private Message" exactly when there is no guild; otherwise it starts with "#" and the channel, is exactly four characters longer than channel and guild together, and holds the guild name between " (" and the closing ")" |
| StatusBot.FilterMembers | bot.py:101-105 | the loaded list holds exactly the extensions whose load succeeded, and the failed list exactly the others |
| StatusBot.FilterPartition | bot.py:101-105 | every extension lands on exactly one side: the loaded and failed lists together are as long as the extension list |
| StatusBot.LoadExtensions | bot.py:101-105 | every extension is tried in order; successes and failures are split in order, and a failure does not stop the loop |
| StatusBot.SetupHook | bot.py:99-114 | every initial extension ends up loaded or failed, never both and never skipped, and jishaku is tried afterwards |
| Lifecycle.ToAttempt | run.py:165-174 | the launcher sees no instance when the constructor raises (an ordinary exception), and otherwise an instance with no restart signal that is ready iff `on_ready` fired |
| Lifecycle.ShippedBotAtMostTwoAttempts | run.py:213-216 | because `restart_signal` stays None, the shipped launcher starts the bot at most twice, never sleeps, and two launches always end the loop |
| Lifecycle.ShippedBotOnceWithoutImportError | run.py:176-216 | unless its first attempt fails with an ImportError, the shipped bot is started exactly once and nothing is installed |
| Lifecycle.InvalidConfigEndsRun | run.py:196-216 | a configuration rejected by the constructor ends the run after that single attempt, through the restart check |
| Lifecycle.NotLoginFailure | run.py:197 | neither configuration error is mistaken for a login failure |
| ErrorReplies.TruncateToInt | bot.py:157 | `int()` truncates toward zero: for a non-negative value it is the floor |
| ErrorReplies.FormatPermission | bot.py:162 | the humanised name is never shorter than the name; what it contains is stated by FormatPermissionHasNoUnderscore and FormatPermissionName |
| ErrorReplies.FormatPermissionHasNoUnderscore | bot.py:162 | whatever the name, its humanised form contains no underscore |
| ErrorReplies.FormatPermissionRenamesFirstGuild | bot.py:162 | every "guild" becomes "server": when the first "guild" of a name starts right after `head`, the humanised name is `head` with underscores spaced, then "server", then the rest of the name spaced and renamed in the same way, all capitalised |
| ErrorReplies.FormatPermissionWithoutGuild | bot.py:162 | a name without "guild" is only spaced and capitalised |
| ErrorReplies.FormatViewGuildInsights | bot.py:162 | a "guild" inside a name is renamed too: "view_guild_insights" becomes the capitalised "view server insights" |
| ErrorReplies.FormatPermissionName | bot.py:162 | for every name of lower-case letters and underscores: no underscore and no "guild" is left, the result is no shorter than the name, its first character is not a lower-case letter, and every later one is a lower-case letter or a space |
| ErrorReplies.ReplaceNeverShortens | bot.py:162 | replacing a pattern by a text at least as long never shortens the text |
| ErrorReplies.PermissionLines | bot.py:159-164 | the list is empty exactly when no permission is missing, and each missing permission adds at least five characters (a newline, "- " and two back-ticks) |
| ErrorReplies.PermissionLinesHaveNoUnderscore | bot.py:159-164 | no underscore of any permission name reaches the reply |
| ErrorReplies.FormatManageGuild | bot.py:162 | "manage_guild" reads "Manage server" |
| ErrorReplies.FormatUpperCaseGuild | bot.py:162 | "guild" is replaced before lower-casing, so "MANAGE_GUILD" reads "Manage guild" |
| ErrorReplies.PermissionLinesAppend | bot.py:160-163 | the permission list is built one "\n- `Name`" line per name, in order |
| ErrorReplies.Say | bot.py:151 | a plain-text reply is a message that starts with the cross mark and a space |
| ErrorReplies.UnexpectedError | bot.py:130-142 | the embed has the ":warning: Unexpected Error" title, and its description is the fixed preamble, the error text verbatim inside a `py` code block, and the closing fence, each at its exact position |
| ErrorReplies.OnCommandError | bot.py:144-180 | a handled context gets no reply; every text reply starts with the cross mark; the unexpected-error embed is sent exactly for an invoke error outside "help" whose original is not an HTTPException |
| ErrorReplies.ReplyIff | bot.py:147-180 | a reply is sent exactly when the context is not handled, the kind is listed, and it is not an invoke error in "help" or wrapping an HTTPException |
| ErrorReplies.CooldownTruncates | bot.py:156-157 | a cooldown of 7.9 seconds is reported as "Try again in 7 seconds." |
| ErrorReplies.FirstMatch | bot.py:150-180 | the chosen branch matches and no earlier branch does; with no choice, no branch matches |
| ErrorReplies.ChainIsFirstMatch | bot.py:150-180 | the handler's chain equals the reply of the first matching branch in the fixed priority order, so it gives at most one reply |
| Help.NewHelpCommand | cogs/help.py:8-10 | `sort_commands` is False unless the caller passes it, and then takes the passed value |
| Help.OpeningNote | cogs/help.py:12-17 | the opening note is never empty, so it is always added |
| Help.OpeningNoteNames | cogs/help.py:12-17 | an empty or missing `invoked_with` reads as "help", and distinct non-empty names give distinct notes |
| Help.CommandLine | cogs/help.py:23-33 | a line starts with the back-ticked invocation, and is exactly that iff the short doc is empty |
| Help.CommandLineLayout | cogs/help.py:26-29 | with a short doc, the line is the invocation, then " – " (space, EN DASH, space), then the short doc, and its length is exactly the sum of the three |
| Help.Flatten | cogs/help.py:67-69 | a command is listed iff some cog of the mapping holds it |
| Help.FlattenAppend | cogs/help.py:67-69 | flattening goes cog by cog in mapping order |
| Help.InsertByName | cogs/help.py:73 | inserting into a name-sorted list keeps it sorted and adds exactly that command |
| Help.SortByName | cogs/help.py:73 | the result is sorted by name and is a permutation of the input |
| Help.OrderCommands | cogs/help.py:71-73 | with `sort_commands` the commands are a name-sorted permutation of the filtered list; otherwise the filtered order is kept |
| Help.CommandLines | cogs/help.py:19-21 | one line per command, in order |
| Help.BotHelpLines | cogs/help.py:54-81 | layout: optional description and its blank line, the opening note and its blank line, "**Commands**", exactly one line per filtered command in listing order, then a blank line and the ending note if present |
| Help.HelpPageLayout | cogs/help.py:58-79 | for any listing, the page has the optional description and its blank line, the opening note and its blank line, "**Commands**", one line per command in order, and a blank line and the ending note when there is one, each at its computed index |
| Help.SortedListingIsPermutation | cogs/help.py:71-73 | with sorting on, the listed commands are the filtered ones rearranged into name order |
| Help.ListingOrderExample | cogs/help.py:73 | commands declared b, a, c are listed a, b, c when sorted and b, a, c when not |
| Help.FindEntry | cogs/help.py:93 | a lookup hit is an entry stored under that key; a miss means no entry has it |
| Help.LookupFinds | cogs/help.py:93 | `all_commands.get(key)` returns a command stored under the key (lower-cased for a case-insensitive table), and a miss means no entry has that key |
| Help.LookupIgnoresCase | cogs/help.py:93 | a case-insensitive table finds the same command whatever the key's letter case |
| Help.Child | cogs/help.py:100-104 | only a group has children: on a plain command, the `AttributeError` case, the lookup always misses |
| Help.Walk | cogs/help.py:99-114 | the walk never yields bot help or command-not-found; a resolved Group gives group help and anything else gives command help |
| Help.Resolve | cogs/help.py:83-114 | no argument gives bot help; command-not-found occurs exactly when the first space-separated key is unknown, and it names that key; a known first key hands the remaining keys to the walk |
| Help.ResolveResolvesIffPath | cogs/help.py:83-114 | the help command shows a command exactly when an argument is given, its first key names a top-level command, and the remaining keys name a path of children from it to that command |
| Help.ResolveFailsAtFirstMiss | cogs/help.py:92-109 | a subcommand-not-found result names the parent reached from the first key through the keys before the first missing one, and that key |
| Help.WalkResolvesIffPath | cogs/help.py:99-114 | the walk resolves to a command exactly when the keys name a path of children leading to it |
| Help.WalkFailsAtFirstMiss | cogs/help.py:99-109 | a failed walk names the parent reached before the first failing key, and that key |
| Help.WalkIgnoresLaterKeys | cogs/help.py:99-109 | once a key is missing, later keys are never looked at |
| Text.Lower | bot.py:80 | `lower()` keeps the length and lower-cases each character on its own (ASCII letters only) |
| Text.Capitalize | bot.py:162 | `capitalize()` keeps the length, upper-cases the first character and lower-cases every later one |
| Text.SplitOnSpace | cogs/help.py:92 | `split(" ")` gives at least one field, and no field contains a space |
| Text.JoinSplit | cogs/help.py:92 | splitting on " " and joining with " " gives back the argument |
| Text.SplitJoin | cogs/help.py:92 | space-free keys joined with " " split back into the same keys |
| Text.ContainsIffOccurs | run.py:197 | the substring test agrees with "occurs at some offset" |
| Text.ReplaceCharIsMap | bot.py:162 | replacing "_" by " " changes exactly the underscores |
| Text.ReplaceAll | bot.py:162 | every character of the result comes from the input or from the replacement text |
| Text.ReplaceAllAbsent | bot.py:162 | a name without "guild" is unchanged by the guild-to-server replacement |
| Text.ReplaceAtFirstOccurrence | bot.py:162 | `str.replace` rewrites the first occurrence and carries on after it: `a + pat + b` becomes `a + rep + replace(b)` when `pat` first occurs right after `a` |
| Text.ReplaceLeavesNoPattern | bot.py:162 | when neither the pattern nor the replacement can start inside the other, no occurrence of the pattern survives (so "guild" never survives the replacement by "server") |
| Text.ReplaceKeepsNonPrefix | bot.py:162 | a text that does not start with `w` still does not after the replacement, when the replacement cannot begin `w` |
| Text.ParseNatToDecimal | bot.py:157 | the decimal spelling of the cooldown seconds reads back as the same number |
| StringOrder.StrLeTotal | cogs/help.py:73 | any two names are comparable |
| StringOrder.StrLeTransitive | cogs/help.py:73 | the name order is transitive |
| StringOrder.StrLeAntisymmetric | cogs/help.py:73 | names that are mutually ordered are equal |

## Left out

- cogs/admin.py: the owner check and `bot.close()` are framework calls with no logic of their own.
- The `PIP` class, `subprocess`, `time.sleep`, `input`/`sys.exit` and `print`: the installer's result is an input (`InstallResult`), and a sleep is recorded rather than performed.
- `sanity_checks` ordering and the `--no-checks` switch.
- `req_ensure_env`: it checks that config.yml and bot.py exist and that the working directory is writable, and exits otherwise. These are filesystem probes and a process exit. Not modelled.
- `req_ensure_folders`: it only creates the logs and data directories. Not modelled.
- `req_check_deps`: it imports discord and logs a warning when its major version is below 2. That is a version probe of an installed package plus a log line. Not modelled.
- YAML loading: the configuration arrives already parsed and well-typed. The refresh rate is an `int`: a float rate (which Python compares with 30 like any number, so 29.5 raises InvalidRefreshRate) and a non-numeric one (which raises TypeError at the comparison) are not modelled.
- The unexpected-error embed's colour (`discord.Color.gold()`): a framework constant with no logic attached. `ErrorReplies.UnexpectedError` records the title and the description only.
- Logging setup, the PyNaCl filter, log texts, and the traceback printed in `finally` and before the embed.
- `get_prefix` / `when_mentioned_or`, and the intents beyond the three flags recorded in `ClientSettings`.
- The framework's exception hierarchy: error kinds are a flat datatype, and `isinstance` is a constructor test.
- `CommandOnCooldown.retry_after` is a Dafny `real`, not a float.
- The paginator's page splitting, `add_command_formatting` and its RuntimeError fallback, and `send_group_help`/`send_command_help`/`send_pages`. The help result is a `HelpTarget` naming which of these is called.
- `filter_commands` is an opaque function parameter, since it depends on checks run by the framework. `remove_mentions` is also a parameter. The wording of `command_not_found`/`subcommand_not_found` is framework text.
- The `cogs.status` extension is not part of this model.
- Text.Lower, Text.Capitalize: ASCII letters only. Python's `lower`, `capitalize` and `casefold` also map non-ASCII letters, so `StatusBot.NewBot`, `SanityChecks.NeedsUtf8Rewrap` and `Help.Lookup` agree with the source only on ASCII text.
- Help.SortByName: it states sortedness and permutation but not stability. Python's `sorted` keeps equal names in input order, which the insertion order also does, but this is not proved.
- Supervisor.Step: the bot object is taken to be truthy, so `not bot_instance` means "no instance".

## Findings

| source | as written | input that shows it | evidently intended | confidence | as-written member | corrected member |
|---|---|---|---|---|---|---|
| run.py:150-152 | `disk_usage(".").free < warnlimit_mb * 1024 * 2` | 1048576 bytes free with the default limit of 200: no warning, although less than 200 MB remains | warn below `warnlimit_mb` mebibytes, `warnlimit_mb * 1024 * 1024` | medium, not executed | SanityChecks.LowDiskSpaceAsWrittenMissesOneMiB | SanityChecks.LowDiskSpaceIff |

=== FILE: error_replies.dfy ===
/**
 * `on_command_error` of bot.py: a command error, already classified by the
 * framework, becomes at most one chat reply, chosen by the first branch of a
 * fixed priority order that matches.
 */
module ErrorReplies {
  import opened Wrappers
  import Text

  /** The exception a `CommandInvokeError` wraps, as far as the handler looks at it. */
  datatype Original = HttpException | OtherException

  /** The error kinds the handler distinguishes; `text` and `message` are `str(error)`. */
  datatype CommandError =
    | NoPrivateMessage
    | ArgumentParsingError(message: string)
    | CommandOnCooldown(retryAfter: real)
    | BotMissingPermissions(missing: seq<string>)
    | BadArgument(message: string)
    | MissingRequiredArgument(paramName: string)
    | CommandInvokeError(original: Original, text: string)
    | Unlisted(text: string)

  /** `hasattr(ctx, "handled")` and `ctx.command`, by qualified name (absent before dispatch). */
  datatype ErrorContext = ErrorContext(handled: bool, command: Option<string>)

  datatype Reply =
    | Message(text: string)
    | UnexpectedErrorEmbed(title: string, description: string)

  /** U+274C CROSS MARK, the prefix of every plain-text reply. */
  const CrossMark: string := "\U{274C}"

  const UnexpectedErrorTitle: string := ":warning: Unexpected Error"

  /** The embed description up to the error text, which opens a Python code block. */
  const UnexpectedErrorPreamble: string := "An unexpected error has occured:```py\n"

  /** What closes the code block after the error text. */
  const CodeBlockEnd: string := "```\n"

  /** `str(ctx.command)`: the qualified name, or "None". */
  function CommandLabel(ctx: ErrorContext): string {
    match ctx.command
    case Some(name) => name
    case None => "None"
  }

  /** `int(x)`: truncation toward zero. */
  function TruncateToInt(x: real): (n: int)
    ensures x >= 0.0 ==> n as real <= x < n as real + 1.0
    ensures x < 0.0 ==> x <= n as real < x + 1.0 && n <= 0
  {
    if x >= 0.0 then x.Floor else -((-x).Floor)
  }

  /** The humanised permission name: "_" to " ", then "guild" to "server", then capitalised. */
  function FormatPermission(permission: string): (r: string)
    ensures |r| >= |permission|
  {
    var spaced := Text.ReplaceAll(permission, "_", " ");
    ReplaceNeverShortens(permission, "_", " ");
    ReplaceNeverShortens(spaced, "guild", "server");
    Text.Capitalize(Text.ReplaceAll(spaced, "guild", "server"))
  }

  /** Whatever the name, no underscore is left in its humanised form. */
  lemma FormatPermissionHasNoUnderscore(permission: string)
    ensures '_' !in FormatPermission(permission)
  {
    var spaced := Text.ReplaceAll(permission, "_", " ");
    Text.ReplaceCharIsMap(permission, '_', ' ');
    assert '_' !in spaced && '_' !in "server";
    var renamed := Text.ReplaceAll(spaced, "guild", "server");
    assert '_' !in renamed;
    var r := Text.Capitalize(renamed);
    assert forall i :: 0 <= i < |r| ==> r[i] != '_';
  }

  /** The shape of the permission names the framework reports: lower-case letters and underscores. */
  predicate IsPermissionName(p: string) {
    forall i :: 0 <= i < |p| ==> 'a' <= p[i] <= 'z' || p[i] == '_'
  }

  /** Lower-case letters and spaces only. */
  predicate LowerWords(s: string) {
    forall i :: 0 <= i < |s| ==> 'a' <= s[i] <= 'z' || s[i] == ' '
  }

  /**
   * For every permission name: no underscore is left, no "guild" survives the
   * renaming, the first character is no longer a lower-case letter and every
   * other character is lower case or a space.
   */
  lemma FormatPermissionName(permission: string)
    requires IsPermissionName(permission)
    ensures var r := FormatPermission(permission);
            && '_' !in r
            && !Text.Contains(r, "guild")
            && |r| >= |permission|
            && (|r| > 0 ==> !('a' <= r[0] <= 'z'))
            && (forall i :: 0 < i < |r| ==> 'a' <= r[i] <= 'z' || r[i] == ' ')
  {
    var renamed := Text.ReplaceAll(Text.ReplaceAll(permission, "_", " "), "guild", "server");
    RenamedIsLowerWords(permission);
    CapitalizeLowerWords(renamed);
  }

  /**
   * Every "guild" becomes "server": when the first "guild" of a name starts
   * right after `head`, the humanised name is `head` spaced, then "server",
   * then the rest of the name humanised in the same way (before capitalising).
   */
  lemma FormatPermissionRenamesFirstGuild(head: string, tail: string)
    requires !Text.Contains(head + "guil", "guild")
    ensures FormatPermission(head + "guild" + tail)
            == Text.Capitalize(Text.ReplaceAll(head, "_", " ") + "server"
                               + Text.ReplaceAll(Text.ReplaceAll(tail, "_", " "), "guild", "server"))
  {
    var spacedHead := Text.ReplaceAll(head, "_", " ");
    var spacedTail := Text.ReplaceAll(tail, "_", " ");
    SpacedAroundGuild(head, tail);
    assert "guild"[..4] == "guil";
    Text.ReplaceAtFirstOccurrence(spacedHead, "guild", "server", spacedTail);
  }

  /** Spacing keeps the first "guild" where it was. */
  lemma SpacedAroundGuild(head: string, tail: string)
    requires !Text.Contains(head + "guil", "guild")
    ensures Text.ReplaceAll(head + "guild" + tail, "_", " ")
            == Text.ReplaceAll(head, "_", " ") + "guild" + Text.ReplaceAll(tail, "_", " ")
    ensures !Text.Contains(Text.ReplaceAll(head, "_", " ") + "guil", "guild")
  {
    NoUnderscoreUnchanged("guild");
    NoUnderscoreUnchanged("guil");
    SpacedAppend(head, "guild");
    SpacedAppend(head + "guild", tail);
    SpacedAppend(head, "guil");
    SpacingKeepsGuildAbsent(head + "guil");
  }

  /** A name without "guild" is only spaced and capitalised. */
  lemma FormatPermissionWithoutGuild(permission: string)
    requires !Text.Contains(permission, "guild")
    ensures FormatPermission(permission) == Text.Capitalize(Text.ReplaceAll(permission, "_", " "))
  {
    SpacingKeepsGuildAbsent(permission);
    Text.ReplaceAllAbsent(Text.ReplaceAll(permission, "_", " "), "guild", "server");
  }

  /** Spacing works piece by piece. */
  lemma SpacedAppend(x: string, y: string)
    ensures Text.ReplaceAll(x + y, "_", " ") == Text.ReplaceAll(x, "_", " ") + Text.ReplaceAll(y, "_", " ")
  {
    Text.ReplaceCharIsMap(x, '_', ' ');
    Text.ReplaceCharIsMap(y, '_', ' ');
    Text.ReplaceCharIsMap(x + y, '_', ' ');
    var l, r := Text.ReplaceAll(x + y, "_", " "), Text.ReplaceAll(x, "_", " ") + Text.ReplaceAll(y, "_", " ");
    forall i | 0 <= i < |l| ensures l[i] == r[i] {
      if i >= |x| {
        assert (x + y)[i] == y[i - |x|];
      }
    }
  }

  /** A text without an underscore is left alone by the spacing. */
  lemma NoUnderscoreUnchanged(s: string)
    requires '_' !in s
    ensures Text.ReplaceAll(s, "_", " ") == s
  {
    Text.MissingFirstCharNotContained(s, "_");
    Text.ReplaceAllAbsent(s, "_", " ");
  }

  /** Spacing cannot create a "guild", which holds no space. */
  lemma SpacingKeepsGuildAbsent(x: string)
    requires !Text.Contains(x, "guild")
    ensures !Text.Contains(Text.ReplaceAll(x, "_", " "), "guild")
  {
    var y := Text.ReplaceAll(x, "_", " ");
    Text.ReplaceCharIsMap(x, '_', ' ');
    Text.ContainsIffOccurs(x, "guild");
    Text.ContainsIffOccurs(y, "guild");
    forall i | 0 <= i <= |y| - 5 ensures !Text.OccursAt(y, "guild", i) {
      GuildSurvivesUnspacing(x, i);
    }
  }

  /** A "guild" in the spaced text was already there: spacing only writes spaces. */
  lemma GuildSurvivesUnspacing(x: string, i: int)
    requires 0 <= i <= |x| - 5
    ensures Text.OccursAt(Text.ReplaceAll(x, "_", " "), "guild", i) ==> Text.OccursAt(x, "guild", i)
  {
    var y := Text.ReplaceAll(x, "_", " ");
    Text.ReplaceCharIsMap(x, '_', ' ');
    if y[i..i + 5] == "guild" {
      forall j | i <= j < i + 5 ensures x[j] == y[j] {
        assert y[j] == y[i..i + 5][j - i];
      }
      assert x[i..i + 5] == y[i..i + 5];
    }
  }

  /** Before capitalising: lower-case words, no "guild", no shorter than the permission name. */
  lemma RenamedIsLowerWords(permission: string)
    requires IsPermissionName(permission)
    ensures var renamed := Text.ReplaceAll(Text.ReplaceAll(permission, "_", " "), "guild", "server");
            && LowerWords(renamed)
            && !Text.Contains(renamed, "guild")
            && |renamed| >= |permission|
  {
    var spaced := Text.ReplaceAll(permission, "_", " ");
    Text.ReplaceCharIsMap(permission, '_', ' ');
    assert LowerWords(spaced);
    var renamed := Text.ReplaceAll(spaced, "guild", "server");
    forall i | 0 <= i < |renamed| ensures 'a' <= renamed[i] <= 'z' || renamed[i] == ' ' {
      assert renamed[i] in renamed;
    }
    Text.ReplaceLeavesNoPattern(spaced, "guild", "server");
    ReplaceNeverShortens(spaced, "guild", "server");
  }

  /**
   * Capitalising lower-case words that hold no "guild" leaves none, keeps the
   * length, upper-cases the first letter and leaves the rest alone.
   */
  lemma CapitalizeLowerWords(s: string)
    requires LowerWords(s) && !Text.Contains(s, "guild")
    ensures var r := Text.Capitalize(s);
            && '_' !in r
            && !Text.Contains(r, "guild")
            && (|r| > 0 ==> !('a' <= r[0] <= 'z'))
            && (forall i :: 0 < i < |r| ==> 'a' <= r[i] <= 'z' || r[i] == ' ')
  {
    var r := Text.Capitalize(s);
    forall i | 0 <= i < |r| ensures r[i] != '_' {
      if i > 0 {
        assert r[i] == s[i];
      }
    }
    Text.ContainsIffOccurs(s, "guild");
    forall j | 0 <= j <= |r| - 5 ensures !Text.OccursAt(r, "guild", j) {
      if j == 0 {
        assert r[0..5][0] == r[0] == Text.UpperChar(s[0]);
      } else {
        assert r[j..j + 5] == s[j..j + 5];
        assert !Text.OccursAt(s, "guild", j);
      }
    }
    Text.ContainsIffOccurs(r, "guild");
  }

  /** Replacing a pattern by a text at least as long never shortens the text. */
  lemma {:induction false} ReplaceNeverShortens(s: string, pat: string, rep: string)
    requires 0 < |pat| <= |rep|
    ensures |Text.ReplaceAll(s, pat, rep)| >= |s|
    decreases |s|
  {
    if |s| >= |pat| {
      if s[..|pat|] == pat {
        ReplaceNeverShortens(s[|pat|..], pat, rep);
      } else {
        ReplaceNeverShortens(s[1..], pat, rep);
      }
    }
  }

  /** One "\n- `Name`" line per missing permission, in order. */
  function PermissionLines(missing: seq<string>): (r: string)
    ensures r == "" <==> missing == []
    ensures |r| >= 5 * |missing|
    decreases |missing|
  {
    if missing == [] then "" else PermissionLine(missing[0]) + PermissionLines(missing[1..])
  }

  /** The line for one missing permission: "\n- `Name`". */
  function PermissionLine(permission: string): (line: string)
    ensures |line| >= 5
  {
    "\n- `" + FormatPermission(permission) + "`"
  }

  /** No underscore of a permission name reaches the reply. */
  lemma {:induction false} PermissionLinesHaveNoUnderscore(missing: seq<string>)
    ensures '_' !in PermissionLines(missing)
    decreases |missing|
  {
    if missing != [] {
      PermissionLinesHaveNoUnderscore(missing[1..]);
      FormatPermissionHasNoUnderscore(missing[0]);
      assert '_' !in "\n- `" && '_' !in "`";
      assert '_' !in PermissionLine(missing[0]);
    }
  }

  /** The permission list is built name by name: the lines of a concatenation are the concatenated lines. */
  lemma {:induction false} PermissionLinesAppend(a: seq<string>, b: seq<string>)
    ensures PermissionLines(a + b) == PermissionLines(a) + PermissionLines(b)
    decreases |a|
  {
    if a != [] {
      var rest := a[1..];
      var line := PermissionLine(a[0]);
      assert PermissionLines(a) == line + PermissionLines(rest) by {
        assert a == [a[0]] + rest;
        PermissionLinesCons(a[0], rest);
      }
      assert PermissionLines(a + b) == line + PermissionLines(rest + b) by {
        assert a + b == [a[0]] + (rest + b);
        PermissionLinesCons(a[0], rest + b);
      }
      PermissionLinesAppend(rest, b);
      Text.AppendAssoc(line, PermissionLines(rest), PermissionLines(b));
    } else {
      assert a + b == b;
    }
  }

  lemma PermissionLinesCons(x: string, rest: seq<string>)
    ensures PermissionLines([x] + rest) == PermissionLine(x) + PermissionLines(rest)
  {
    assert ([x] + rest)[1..] == rest;
  }

  /** "manage_guild" reads "Manage server". */
  lemma FormatManageGuild(permission: string)
    requires permission == "manage_guild"
    ensures FormatPermission(permission) == "Manage server"
  {
    var spaced := Text.ReplaceAll(permission, "_", " ");
    SpaceManageGuild(permission);
    var head := spaced[..7];
    assert head == "manage ";
    assert spaced == head + "guild";
    ReplaceGuildSuffix(head);
    var renamed := Text.ReplaceAll(spaced, "guild", "server");
    assert renamed == head + "server";
    CapitalizeManageServer(renamed);
  }

  lemma SpaceManageGuild(permission: string)
    requires permission == "manage_guild"
    ensures Text.ReplaceAll(permission, "_", " ") == "manage guild"
  {
    Text.ReplaceCharIsMap(permission, '_', ' ');
  }

  lemma CapitalizeManageServer(s: string)
    requires s == "manage server"
    ensures Text.Capitalize(s) == "Manage server"
  {
  }

  /** A "guild" in the middle of a name is renamed too: "view_guild_insights" reads "view server insights", capitalised. */
  lemma FormatViewGuildInsights(permission: string)
    requires permission == "view_guild_insights"
    ensures FormatPermission(permission) == Text.Capitalize("view " + "server" + " insights")
  {
    var head, tail := "view_", "_insights";
    assert permission == head + "guild" + tail;
    NoGuildBeforeWithoutU(head);
    FormatPermissionRenamesFirstGuild(head, tail);
    SpaceView(head);
    RenameInsights(tail);
  }

  lemma SpaceView(head: string)
    requires head == "view_"
    ensures Text.ReplaceAll(head, "_", " ") == "view "
  {
    Text.ReplaceCharIsMap(head, '_', ' ');
  }

  lemma RenameInsights(tail: string)
    requires tail == "_insights"
    ensures Text.ReplaceAll(Text.ReplaceAll(tail, "_", " "), "guild", "server") == " insights"
  {
    Text.ReplaceCharIsMap(tail, '_', ' ');
    var spaced := Text.ReplaceAll(tail, "_", " ");
    assert spaced == " insights";
    NoGuildWithoutU(spaced);
    Text.ReplaceAllAbsent(spaced, "guild", "server");
  }

  /** A text without a 'u' holds no "guild". */
  lemma NoGuildWithoutU(s: string)
    requires 'u' !in s
    ensures !Text.Contains(s, "guild")
  {
    Text.ContainsIffOccurs(s, "guild");
    forall i | 0 <= i <= |s| - 5 ensures !Text.OccursAt(s, "guild", i) {
      assert s[i..i + 5][1] == s[i + 1] && s[i + 1] in s && "guild"[1] == 'u';
    }
  }

  /** Without a 'u' in `head`, no "guild" can start before the one that follows it. */
  lemma NoGuildBeforeWithoutU(head: string)
    requires 'u' !in head
    ensures !Text.Contains(head + "guil", "guild")
  {
    var u := head + "guil";
    Text.ContainsIffOccurs(u, "guild");
    forall i | 0 <= i <= |u| - 5 ensures !Text.OccursAt(u, "guild", i) {
      assert u[i + 1] != 'u' by {
        if i + 1 < |head| {
          assert u[i + 1] == head[i + 1] && head[i + 1] in head;
        } else {
          assert u[i + 1] == "guil"[i + 1 - |head|];
        }
      }
      assert u[i..i + 5][1] == u[i + 1] && "guild"[1] == 'u';
    }
  }

  /** "guild" is renamed only in lower case, before capitalisation: "MANAGE_GUILD" reads "Manage guild". */
  lemma FormatUpperCaseGuild(permission: string)
    requires permission == "MANAGE_GUILD"
    ensures FormatPermission(permission) == "Manage guild"
  {
    var spaced := Text.ReplaceAll(permission, "_", " ");
    Text.ReplaceCharIsMap(permission, '_', ' ');
    assert spaced == "MANAGE GUILD";
    assert 'g' !in spaced;
    Text.MissingFirstCharNotContained(spaced, "guild");
    Text.ReplaceAllAbsent(spaced, "guild", "server");
    CapitalizeUpperCaseGuild(spaced);
  }

  lemma CapitalizeUpperCaseGuild(s: string)
    requires s == "MANAGE GUILD"
    ensures Text.Capitalize(s) == "Manage guild"
  {
  }

  /** A text without a 'u' followed by "guild" ends in "server" instead: no earlier "guild" can start. */
  lemma {:induction false} ReplaceGuildSuffix(head: string)
    requires 'u' !in head
    ensures Text.ReplaceAll(head + "guild", "guild", "server") == head + "server"
    decreases |head|
  {
    var s := head + "guild";
    if head == [] {
      assert s[..5] == "guild";
      assert s[5..] == [];
    } else {
      assert s[..5] != "guild" by {
        assert s[1] == if |head| > 1 then head[1] else 'g';
      }
      assert s[1..] == head[1..] + "guild";
      ReplaceGuildSuffix(head[1..]);
    }
  }

  /** The seconds shown by the cooldown reply. */
  function CooldownSeconds(retryAfter: real): int {
    TruncateToInt(retryAfter)
  }

  /** A plain-text reply: the cross mark, a space, then `body`. */
  function Say(body: string): (r: Reply)
    ensures r.Message? && Text.StartsWith(r.text, CrossMark + " ")
  {
    var text := CrossMark + " " + body;
    assert text[..|CrossMark + " "|] == CrossMark + " ";
    Message(text)
  }

  /** The embed that reports an unexpected error: the fixed title, then `text` in a Python code block. */
  function UnexpectedError(text: string): (r: Reply)
    ensures r.UnexpectedErrorEmbed? && r.title == UnexpectedErrorTitle
    ensures |r.description| == |UnexpectedErrorPreamble| + |text| + |CodeBlockEnd|
    ensures Text.StartsWith(r.description, UnexpectedErrorPreamble)
    ensures r.description[|UnexpectedErrorPreamble|..|UnexpectedErrorPreamble| + |text|] == text
    ensures r.description[|r.description| - |CodeBlockEnd|..] == CodeBlockEnd
  {
    var description := UnexpectedErrorPreamble + text + CodeBlockEnd;
    assert description[..|UnexpectedErrorPreamble|] == UnexpectedErrorPreamble;
    assert description[|UnexpectedErrorPreamble|..|UnexpectedErrorPreamble| + |text|] == text;
    assert description[|description| - |CodeBlockEnd|..] == CodeBlockEnd;
    UnexpectedErrorEmbed(UnexpectedErrorTitle, description)
  }

  /** The handler's `if`/`elif` chain. */
  function OnCommandError(ctx: ErrorContext, err: CommandError): (reply: Option<Reply>)
    ensures ctx.handled ==> reply.None?
    ensures reply.Some? && reply.value.Message? ==> Text.StartsWith(reply.value.text, CrossMark + " ")
    ensures reply.Some? && reply.value.UnexpectedErrorEmbed? <==>
              !ctx.handled && err.CommandInvokeError? && CommandLabel(ctx) != "help"
              && err.original.OtherException?
  {
    if ctx.handled then None
    else
      var reply := match err
        case NoPrivateMessage =>
          Some(Say("This command can't be used in DMs."))
        case ArgumentParsingError(message) =>
          Some(Say(message))
        case CommandOnCooldown(retryAfter) =>
          Some(Say("You are on cooldown. Try again in "
                       + Text.IntToDecimal(CooldownSeconds(retryAfter)) + " seconds."))
        case BotMissingPermissions(missing) =>
          Some(Say("I am missing some required permission(s):" + PermissionLines(missing)))
        case BadArgument(message) =>
          Some(Say(message))
        case MissingRequiredArgument(name) =>
          Some(Say("Missing a required argument: `" + name + "`"))
        case CommandInvokeError(original, text) =>
          if CommandLabel(ctx) == "help" then None
          else if original.HttpException? then None
          else Some(UnexpectedError(text))
        case Unlisted(_) => None;
      reply
  }

  /** The error produces a reply: not handled, a listed kind, and not an invoke error the handler ignores. */
  predicate RepliesTo(ctx: ErrorContext, err: CommandError) {
    && !ctx.handled
    && !err.Unlisted?
    && (err.CommandInvokeError? ==> CommandLabel(ctx) != "help" && !err.original.HttpException?)
  }

  /** The three silent cases, and "handled", are exactly the errors without a reply. */
  lemma ReplyIff(ctx: ErrorContext, err: CommandError)
    ensures OnCommandError(ctx, err).Some? <==> RepliesTo(ctx, err)
  {
  }

  /** A cooldown of 7.9 seconds is reported as 7 seconds. */
  lemma CooldownTruncates()
    ensures OnCommandError(ErrorContext(false, Some("status")), CommandOnCooldown(7.9))
            == Some(Say("You are on cooldown. Try again in 7 seconds."))
  {
    assert CooldownSeconds(7.9) == 7;
    assert Text.IntToDecimal(7) == "7";
    assert "You are on cooldown. Try again in " + Text.IntToDecimal(7) + " seconds."
        == "You are on cooldown. Try again in 7 seconds.";
  }

  /** The branches of the chain, in the order they are tried. */
  datatype Branch = DmOnly | ParsingFailed | OnCooldown | MissingPermissions | InvalidArgument
                  | MissingArgument | HelpInvoke | Invoke

  const Priority: seq<Branch> :=
    [DmOnly, ParsingFailed, OnCooldown, MissingPermissions, InvalidArgument, MissingArgument, HelpInvoke, Invoke]

  /** The `isinstance` test (and, for help, the command-name test) of one branch. */
  predicate Matches(b: Branch, ctx: ErrorContext, err: CommandError) {
    match b
    case DmOnly => err.NoPrivateMessage?
    case ParsingFailed => err.ArgumentParsingError?
    case OnCooldown => err.CommandOnCooldown?
    case MissingPermissions => err.BotMissingPermissions?
    case InvalidArgument => err.BadArgument?
    case MissingArgument => err.MissingRequiredArgument?
    case HelpInvoke => err.CommandInvokeError? && CommandLabel(ctx) == "help"
    case Invoke => err.CommandInvokeError?
  }

  /** What one branch sends, taken on its own. */
  function BranchReply(b: Branch, ctx: ErrorContext, err: CommandError): Option<Reply>
    requires Matches(b, ctx, err)
  {
    match b
    case DmOnly => Some(Say("This command can't be used in DMs."))
    case ParsingFailed => Some(Say(err.message))
    case OnCooldown =>
      Some(Say("You are on cooldown. Try again in "
                   + Text.IntToDecimal(CooldownSeconds(err.retryAfter)) + " seconds."))
    case MissingPermissions =>
      Some(Say("I am missing some required permission(s):" + PermissionLines(err.missing)))
    case InvalidArgument => Some(Say(err.message))
    case MissingArgument => Some(Say("Missing a required argument: `" + err.paramName + "`"))
    case HelpInvoke => None
    case Invoke => if err.original.HttpException? then None else Some(UnexpectedError(err.text))
  }

  /** The index of the first branch of `bs` that matches, if any. */
  function FirstMatch(bs: seq<Branch>, ctx: ErrorContext, err: CommandError): (k: Option<nat>)
    ensures k.Some? ==> k.value < |bs| && Matches(bs[k.value], ctx, err)
    ensures k.Some? ==> forall j :: 0 <= j < k.value ==> !Matches(bs[j], ctx, err)
    ensures k.None? ==> forall j :: 0 <= j < |bs| ==> !Matches(bs[j], ctx, err)
    decreases |bs|
  {
    if bs == [] then None
    else if Matches(bs[0], ctx, err) then Some(0)
    else match FirstMatch(bs[1..], ctx, err)
      case None => None
      case Some(k) => Some(k + 1)
  }

  /** The handler read as a priority table: nothing when handled, else the first matching branch's reply. */
  function DispatchByPriority(ctx: ErrorContext, err: CommandError): Option<Reply> {
    if ctx.handled then None
    else match FirstMatch(Priority, ctx, err)
      case None => None
      case Some(k) => BranchReply(Priority[k], ctx, err)
  }

  /**
   * The chain agrees with the priority table on every error: at most one reply,
   * from the first branch in the fixed order that matches; an invoke error in
   * the help command stops at the help branch and never reaches the embed.
   */
  lemma ChainIsFirstMatch(ctx: ErrorContext, err: CommandError)
    ensures OnCommandError(ctx, err) == DispatchByPriority(ctx, err)
  {
    if !ctx.handled {
      if err.CommandInvokeError? || err.Unlisted? {
        ChainSilentOrEmbed(ctx, err);
      } else {
        ChainPlainReplies(ctx, err);
      }
    }
  }

  /** The six plain-text branches agree with the table. */
  lemma ChainPlainReplies(ctx: ErrorContext, err: CommandError)
    requires !ctx.handled && !err.CommandInvokeError? && !err.Unlisted?
    ensures OnCommandError(ctx, err) == DispatchByPriority(ctx, err)
  {
    if err.NoPrivateMessage? || err.ArgumentParsingError? || err.CommandOnCooldown? {
      ChainFirstThree(ctx, err);
    } else {
      ChainNextThree(ctx, err);
    }
  }

  /** The DM, parsing and cooldown branches agree with the table. */
  lemma ChainFirstThree(ctx: ErrorContext, err: CommandError)
    requires !ctx.handled && (err.NoPrivateMessage? || err.ArgumentParsingError? || err.CommandOnCooldown?)
    ensures OnCommandError(ctx, err) == DispatchByPriority(ctx, err)
  {
    if err.NoPrivateMessage? {
      FirstMatchAt(Priority, ctx, err, 0);
    } else if err.ArgumentParsingError? {
      FirstMatchAt(Priority, ctx, err, 1);
    } else {
      FirstMatchAt(Priority, ctx, err, 2);
    }
  }

  /** The permission, bad-argument and missing-argument branches agree with the table. */
  lemma ChainNextThree(ctx: ErrorContext, err: CommandError)
    requires !ctx.handled
    requires err.BotMissingPermissions? || err.BadArgument? || err.MissingRequiredArgument?
    ensures OnCommandError(ctx, err) == DispatchByPriority(ctx, err)
  {
    if err.BotMissingPermissions? {
      FirstMatchAt(Priority, ctx, err, 3);
    } else if err.BadArgument? {
      FirstMatchAt(Priority, ctx, err, 4);
    } else {
      FirstMatchAt(Priority, ctx, err, 5);
    }
  }

  /** The invoke-error branches and the unlisted errors agree with the table. */
  lemma ChainSilentOrEmbed(ctx: ErrorContext, err: CommandError)
    requires !ctx.handled && (err.CommandInvokeError? || err.Unlisted?)
    ensures OnCommandError(ctx, err) == DispatchByPriority(ctx, err)
  {
    if err.Unlisted? {
      forall j | 0 <= j < |Priority| ensures !Matches(Priority[j], ctx, err) {
      }
    } else if CommandLabel(ctx) == "help" {
      FirstMatchAt(Priority, ctx, err, 6);
    } else {
      FirstMatchAt(Priority, ctx, err, 7);
    }
  }

  /** A matching branch with no matching branch before it is the first match. */
  lemma FirstMatchAt(bs: seq<Branch>, ctx: ErrorContext, err: CommandError, i: nat)
    requires i < |bs| && Matches(bs[i], ctx, err)
    requires forall j :: 0 <= j < i ==> !Matches(bs[j], ctx, err)
    ensures FirstMatch(bs, ctx, err) == Some(i)
  {
  }
}

=== FILE: help.dfy ===
/**
 * The help cog (cogs/help.py): a minimal help command that lists every command
 * in one flat list, one line each, and resolves a space-separated command path
 * through the command tree before delegating to group or command help.
 */
module Help {
  import opened Wrappers
  import Text
  import StringOrder

  /** A registered command; `subcommands` is present exactly for a `Group`. */
  datatype Command = Command(name: string, qualifiedName: string, shortDoc: string, subcommands: Option<Registry>)

  /** A command table (`all_commands`): names and aliases as stored, and whether lookups fold case. */
  datatype Registry = Registry(caseInsensitive: bool, entries: seq<Entry>)

  datatype Entry = Entry(key: string, command: Command)

  predicate IsGroup(c: Command) {
    c.subcommands.Some?
  }

  /** The options of the help command that the model reads. */
  datatype HelpCommand = HelpCommand(sortCommands: bool)

  /** `HelpCommand(**kwargs)`: `sort_commands` is False unless the caller passes it. */
  function NewHelpCommand(kwargs: map<string, bool>): (h: HelpCommand)
    ensures "sort_commands" !in kwargs ==> !h.sortCommands
    ensures "sort_commands" in kwargs ==> h.sortCommands == kwargs["sort_commands"]
  {
    HelpCommand(if "sort_commands" in kwargs then kwargs["sort_commands"] else false)
  }

  // ---------------------------------------------------------------- text

  /** The command name shown in the opening note: "help" when `invoked_with` is empty or None. */
  function InvokedName(invokedWith: Option<string>): string {
    if invokedWith.None? || invokedWith.value == "" then "help" else invokedWith.value
  }

  /** `get_opening_note`. */
  function OpeningNote(cleanPrefix: string, invokedWith: Option<string>): (note: string)
    ensures note != ""
  {
    "Use `" + cleanPrefix + InvokedName(invokedWith) + " [command]` for more info on a command."
  }

  /**
   * An empty or missing `invoked_with` reads as "help"; otherwise distinct
   * invocation names give distinct notes, so the note names the command used.
   */
  lemma OpeningNoteNames(cleanPrefix: string, a: string, b: string)
    ensures OpeningNote(cleanPrefix, None) == OpeningNote(cleanPrefix, Some(""))
                                          == OpeningNote(cleanPrefix, Some("help"))
    ensures a != "" && b != "" && a != b ==> OpeningNote(cleanPrefix, Some(a)) != OpeningNote(cleanPrefix, Some(b))
  {
    if a != "" && b != "" && OpeningNote(cleanPrefix, Some(a)) == OpeningNote(cleanPrefix, Some(b)) {
      var head := "Use `" + cleanPrefix;
      var tail := " [command]` for more info on a command.";
      var na := head + a + tail;
      var nb := head + b + tail;
      assert |a| == |b|;
      assert a == na[|head|..|head| + |a|];
      assert b == nb[|head|..|head| + |b|];
    }
  }

  /** U+2013 EN DASH, between a command and its short description. */
  const EnDash: string := "\U{2013}"

  /** The invocation of a command in back-ticks. */
  function Invocation(cleanPrefix: string, c: Command): string {
    "`" + cleanPrefix + c.qualifiedName + "`"
  }

  /** `add_subcommand_formatting`: the invocation, then " – short doc" when there is one. */
  function CommandLine(cleanPrefix: string, c: Command): (line: string)
    ensures Text.StartsWith(line, Invocation(cleanPrefix, c))
    ensures line == Invocation(cleanPrefix, c) <==> c.shortDoc == ""
  {
    var inv := Invocation(cleanPrefix, c);
    if c.shortDoc != "" then
      var line := inv + " " + EnDash + " " + c.shortDoc;
      assert line[..|inv|] == inv;
      line
    else inv
  }

  /**
   * A line with a short description is exactly the invocation, the separator
   * " – " and the short description, in that order.
   */
  lemma CommandLineLayout(cleanPrefix: string, c: Command)
    requires c.shortDoc != ""
    ensures var line := CommandLine(cleanPrefix, c);
            var n := |Invocation(cleanPrefix, c)|;
            && |line| == n + 3 + |c.shortDoc|
            && line[..n] == Invocation(cleanPrefix, c)
            && line[n..n + 3] == " " + EnDash + " "
            && line[n + 3..] == c.shortDoc
  {
    var inv := Invocation(cleanPrefix, c);
    var line := inv + " " + EnDash + " " + c.shortDoc;
    assert line[..|inv|] == inv;
    assert line[|inv|..|inv| + 3] == " " + EnDash + " ";
    assert line[|inv| + 3..] == c.shortDoc;
  }

  // ---------------------------------------------------------------- bot help

  /** One cog and its commands, as `get_bot_mapping` lists them. */
  datatype CogCommands = CogCommands(cog: Option<string>, commands: seq<Command>)

  /** Every cog's commands, cog by cog, in mapping order. */
  function Flatten(mapping: seq<CogCommands>): (all: seq<Command>)
    ensures forall c :: c in all <==> exists i :: 0 <= i < |mapping| && c in mapping[i].commands
    decreases |mapping|
  {
    if mapping == [] then []
    else
      var rest := Flatten(mapping[1..]);
      assert forall i :: 0 < i < |mapping| ==> mapping[i] == mapping[1..][i - 1];
      mapping[0].commands + rest
  }

  /** Flattening is done cog by cog: the list for two mappings is the concatenation of their lists. */
  lemma {:induction false} FlattenAppend(a: seq<CogCommands>, b: seq<CogCommands>)
    ensures Flatten(a + b) == Flatten(a) + Flatten(b)
    decreases |a|
  {
    if a == [] {
      assert a + b == b;
    } else {
      assert (a + b)[0] == a[0];
      assert (a + b)[1..] == a[1..] + b;
      FlattenAppend(a[1..], b);
    }
  }

  /** The commands listed, sorted by name: every name at most every later one. */
  predicate SortedByName(s: seq<Command>) {
    forall i, j :: 0 <= i < j < |s| ==> StringOrder.StrLe(s[i].name, s[j].name)
  }

  /** Inserts `c` into a name-sorted list, after every command whose name is not greater. */
  function InsertByName(s: seq<Command>, c: Command): (r: seq<Command>)
    requires SortedByName(s)
    ensures SortedByName(r)
    ensures multiset(r) == multiset(s) + multiset{c}
    decreases |s|
  {
    if s == [] then [c]
    else if StringOrder.StrLess(c.name, s[0].name) then
      InsertFront(s, c);
      [c] + s
    else
      var rest := InsertByName(s[1..], c);
      InsertAfterHead(s, c, rest);
      [s[0]] + rest
  }

  /** A command whose name is less than the first name can go in front. */
  lemma InsertFront(s: seq<Command>, c: Command)
    requires SortedByName(s) && s != [] && StringOrder.StrLess(c.name, s[0].name)
    ensures SortedByName([c] + s)
  {
    StringOrder.StrLeTotal(c.name, s[0].name);
    forall j | 0 <= j < |s|
      ensures StringOrder.StrLe(c.name, s[j].name)
    {
      if j > 0 { StringOrder.StrLeTransitive(c.name, s[0].name, s[j].name); }
    }
    var r := [c] + s;
    forall i, j | 0 <= i < j < |r| ensures StringOrder.StrLe(r[i].name, r[j].name) {
      if i > 0 {
        assert r[i] == s[i - 1] && r[j] == s[j - 1];
      } else {
        assert r[j] == s[j - 1];
      }
    }
  }

  /** When `c` does not go in front, the first command stays first of the sorted rest with `c`. */
  lemma InsertAfterHead(s: seq<Command>, c: Command, rest: seq<Command>)
    requires SortedByName(s) && s != [] && !StringOrder.StrLess(c.name, s[0].name)
    requires SortedByName(rest) && multiset(rest) == multiset(s[1..]) + multiset{c}
    ensures SortedByName([s[0]] + rest)
    ensures multiset([s[0]] + rest) == multiset(s) + multiset{c}
  {
    forall j | 0 <= j < |rest|
      ensures StringOrder.StrLe(s[0].name, rest[j].name)
    {
      assert rest[j] in multiset(rest);
      if rest[j] != c {
        assert rest[j] in multiset(s[1..]);
        var k :| 0 <= k < |s[1..]| && s[1..][k] == rest[j];
        assert s[k + 1] == rest[j];
      }
    }
    var r := [s[0]] + rest;
    forall i, j | 0 <= i < j < |r| ensures StringOrder.StrLe(r[i].name, r[j].name) {
      if i > 0 {
        assert r[i] == rest[i - 1] && r[j] == rest[j - 1];
      } else {
        assert r[j] == rest[j - 1];
      }
    }
    assert s == [s[0]] + s[1..];
  }

  /** `sorted(commands, key=lambda c: c.name)`: insertion sort, keeping the input's order among equal names. */
  function SortByName(s: seq<Command>): (r: seq<Command>)
    ensures SortedByName(r)
    ensures multiset(r) == multiset(s)
    decreases |s|
  {
    if s == [] then []
    else
      var init := s[..|s| - 1];
      assert s == init + [s[|s| - 1]];
      InsertByName(SortByName(init), s[|s| - 1])
  }

  /** What the help command shows, and what it reads from the framework. */
  datatype HelpView = HelpView(
    sortCommands: bool,
    cleanPrefix: string,
    invokedWith: Option<string>,
    botDescription: string,
    endingNote: string)

  /** The commands in listing order: by name with `sort_commands`, otherwise as `filter_commands` gave them. */
  function OrderCommands(view: HelpView, filtered: seq<Command>): (cmds: seq<Command>)
    ensures multiset(cmds) == multiset(filtered)
    ensures view.sortCommands ==> SortedByName(cmds)
    ensures !view.sortCommands ==> cmds == filtered
  {
    if view.sortCommands then SortByName(filtered) else filtered
  }

  /** The lines of all listed commands, one per command. */
  function CommandLines(cleanPrefix: string, cmds: seq<Command>): (lines: seq<string>)
    ensures |lines| == |cmds|
    ensures forall i :: 0 <= i < |cmds| ==> lines[i] == CommandLine(cleanPrefix, cmds[i])
    decreases |cmds|
  {
    if cmds == [] then []
    else
      var rest := CommandLines(cleanPrefix, cmds[1..]);
      CommandLinesTail(cleanPrefix, cmds, rest);
      [CommandLine(cleanPrefix, cmds[0])] + rest
  }

  /** Prefixing the first command's line to the lines of the rest puts every line at its command's index. */
  lemma CommandLinesTail(cleanPrefix: string, cmds: seq<Command>, rest: seq<string>)
    requires cmds != [] && |rest| == |cmds| - 1
    requires forall i :: 0 <= i < |cmds| - 1 ==> rest[i] == CommandLine(cleanPrefix, cmds[1..][i])
    ensures forall i :: 0 <= i < |cmds| ==> ([CommandLine(cleanPrefix, cmds[0])] + rest)[i] == CommandLine(cleanPrefix, cmds[i])
  {
    var lines := [CommandLine(cleanPrefix, cmds[0])] + rest;
    forall i | 0 < i < |cmds| ensures lines[i] == CommandLine(cleanPrefix, cmds[i]) {
      assert lines[i] == rest[i - 1] && cmds[1..][i - 1] == cmds[i];
    }
  }

  /** `paginator.add_line(line, empty=True)`: the line, then an empty line. */
  function LineWithGap(line: string): seq<string> {
    [line, ""]
  }

  /** The index of the "**Commands**" header in the bot help page. */
  function HeaderIndex(view: HelpView): (h: nat)
    ensures h == 2 || h == 4
  {
    (if view.botDescription != "" then 2 else 0) + 2
  }

  /**
   * `send_bot_help`: optional bot description, the opening note, the
   * "**Commands**" header, the command lines, then a blank line and the ending
   * note if there is one.  `filter` stands for the framework's `filter_commands`.
   */
  function BotHelpLines(view: HelpView, mapping: seq<CogCommands>, filter: seq<Command> -> seq<Command>)
    : (lines: seq<string>)
    ensures var cmds := OrderCommands(view, filter(Flatten(mapping)));
            var h := HeaderIndex(view);
            && |lines| == h + 1 + |cmds| + (if view.endingNote != "" then 2 else 0)
            && lines[h] == "**Commands**"
            && lines[h - 2] == OpeningNote(view.cleanPrefix, view.invokedWith)
            && lines[h - 1] == ""
            && (view.botDescription != "" ==> lines[0] == view.botDescription && lines[1] == "")
            && (forall i :: 0 <= i < |cmds| ==> lines[h + 1 + i] == CommandLine(view.cleanPrefix, cmds[i]))
            && (view.endingNote != "" ==> lines[|lines| - 2] == "" && lines[|lines| - 1] == view.endingNote)
  {
    var cmds := OrderCommands(view, filter(Flatten(mapping)));
    HelpPageLayout(view, cmds);
    HelpPage(view, cmds)
  }

  /** The bot help page for the commands `cmds`, already in listing order. */
  function HelpPage(view: HelpView, cmds: seq<Command>): seq<string> {
    var description := if view.botDescription != "" then LineWithGap(view.botDescription) else [];
    var opening := LineWithGap(OpeningNote(view.cleanPrefix, view.invokedWith));
    var ending := if view.endingNote != "" then ["", view.endingNote] else [];
    description + opening + ["**Commands**"] + CommandLines(view.cleanPrefix, cmds) + ending
  }

  /** Where each part of the bot help page lands. */
  lemma HelpPageLayout(view: HelpView, cmds: seq<Command>)
    ensures var lines := HelpPage(view, cmds);
            var h := HeaderIndex(view);
            && |lines| == h + 1 + |cmds| + (if view.endingNote != "" then 2 else 0)
            && lines[h] == "**Commands**"
            && lines[h - 2] == OpeningNote(view.cleanPrefix, view.invokedWith)
            && lines[h - 1] == ""
            && (view.botDescription != "" ==> lines[0] == view.botDescription && lines[1] == "")
            && (forall i :: 0 <= i < |cmds| ==> lines[h + 1 + i] == CommandLine(view.cleanPrefix, cmds[i]))
            && (view.endingNote != "" ==> lines[|lines| - 2] == "" && lines[|lines| - 1] == view.endingNote)
  {
    var h := HeaderIndex(view);
    var description := if view.botDescription != "" then LineWithGap(view.botDescription) else [];
    var opening := LineWithGap(OpeningNote(view.cleanPrefix, view.invokedWith));
    var ending := if view.endingNote != "" then ["", view.endingNote] else [];
    var head := description + opening + ["**Commands**"];
    assert |head| == h + 1 && head[h] == "**Commands**" && head[h - 2] == opening[0] && head[h - 1] == ""
           && (view.botDescription != "" ==> head[0] == view.botDescription && head[1] == "") by {
      assert |description| == h - 2;
    }
    assert HelpPage(view, cmds) == head + CommandLines(view.cleanPrefix, cmds) + ending;
    PageLayout(head, ending, h, view.cleanPrefix, cmds);
  }

  /** Where the head, the command lines and the ending of a help page land. */
  lemma PageLayout(head: seq<string>, ending: seq<string>, h: nat, cleanPrefix: string, cmds: seq<Command>)
    requires |head| == h + 1
    ensures var lines := head + CommandLines(cleanPrefix, cmds) + ending;
            && |lines| == h + 1 + |cmds| + |ending|
            && (forall i :: 0 <= i <= h ==> lines[i] == head[i])
            && (forall i :: 0 <= i < |cmds| ==> lines[h + 1 + i] == CommandLine(cleanPrefix, cmds[i]))
            && (forall i :: 0 <= i < |ending| ==> lines[h + 1 + |cmds| + i] == ending[i])
  {
  }

  /** With sorting on, the listed commands are the filtered ones, rearranged so names never decrease. */
  lemma SortedListingIsPermutation(view: HelpView, mapping: seq<CogCommands>, filter: seq<Command> -> seq<Command>)
    requires view.sortCommands
    ensures var cmds := OrderCommands(view, filter(Flatten(mapping)));
            SortedByName(cmds) && multiset(cmds) == multiset(filter(Flatten(mapping)))
  {
  }

  /** Three commands declared b, a, c are listed a, b, c when sorted, and b, a, c when not. */
  lemma ListingOrderExample(a: Command, b: Command, c: Command, view: HelpView)
    requires a.name == "a" && b.name == "b" && c.name == "c"
    ensures OrderCommands(view.(sortCommands := true), [b, a, c]) == [a, b, c]
    ensures OrderCommands(view.(sortCommands := false), [b, a, c]) == [b, a, c]
  {
    SortExampleTwo(a, b);
    SortStep([b, a, c]);
    assert [b, a, c][..2] == [b, a];
    InsertExampleLast(a, b, c);
  }

  /** Sorting b, a gives a, b. */
  lemma SortExampleTwo(a: Command, b: Command)
    requires a.name == "a" && b.name == "b"
    ensures SortByName([b, a]) == [a, b]
  {
    SortSingle(b);
    SortStep([b, a]);
    assert [b, a][..1] == [b];
    assert StringOrder.StrLess("a", "b") by { assert !StringOrder.StrLe("b", "a"); }
    InsertStep([b], a);
  }

  /** A single command is already sorted. */
  lemma SortSingle(b: Command)
    ensures SortByName([b]) == [b]
  {
    SortStep([b]);
    assert [b][..0] == [];
  }

  /** Inserting c into a, b appends it. */
  lemma InsertExampleLast(a: Command, b: Command, c: Command)
    requires a.name == "a" && b.name == "b" && c.name == "c"
    ensures SortedByName([a, b])
    ensures InsertByName([a, b], c) == [a, b, c]
  {
    assert StringOrder.StrLe("a", "b");
    assert !StringOrder.StrLess("c", "b") by { assert StringOrder.StrLe("b", "c"); }
    assert !StringOrder.StrLess("c", "a") by { assert StringOrder.StrLe("a", "c"); }
    InsertStep([a, b], c);
    assert [a, b][1..] == [b];
    InsertStep([b], c);
    assert [b][1..] == [];
  }

  /** One step of `SortByName` on a non-empty list. */
  lemma SortStep(s: seq<Command>)
    requires s != []
    ensures SortByName(s) == InsertByName(SortByName(s[..|s| - 1]), s[|s| - 1])
  {
  }

  /** One step of `InsertByName` on a non-empty list. */
  lemma InsertStep(s: seq<Command>, c: Command)
    requires SortedByName(s) && s != []
    ensures StringOrder.StrLess(c.name, s[0].name) ==> InsertByName(s, c) == [c] + s
    ensures !StringOrder.StrLess(c.name, s[0].name) ==> InsertByName(s, c) == [s[0]] + InsertByName(s[1..], c)
  {
  }

  // ---------------------------------------------------------------- path resolution

  /** The command stored under exactly `key`, if any. */
  function FindEntry(entries: seq<Entry>, key: string): (r: Option<Command>)
    ensures r.Some? ==> exists i :: 0 <= i < |entries| && entries[i] == Entry(key, r.value)
    ensures r.None? ==> forall i :: 0 <= i < |entries| ==> entries[i].key != key
    decreases |entries|
  {
    if entries == [] then None
    else if entries[0].key == key then Some(entries[0].command)
    else
      var r := FindEntry(entries[1..], key);
      assert forall i :: 0 < i < |entries| ==> entries[i] == entries[1..][i - 1];
      r
  }

  /** The key a table compares: lower-cased when the table is case-insensitive. */
  function StoredKey(reg: Registry, key: string): string {
    if reg.caseInsensitive then Text.Lower(key) else key
  }

  /** `all_commands.get(key)`. */
  function Lookup(reg: Registry, key: string): Option<Command> {
    FindEntry(reg.entries, StoredKey(reg, key))
  }

  /** A lookup hit is a command stored under the (folded) key; a miss means no entry has that key. */
  lemma LookupFinds(reg: Registry, key: string)
    ensures Lookup(reg, key).Some? ==>
              exists i :: 0 <= i < |reg.entries| && reg.entries[i] == Entry(StoredKey(reg, key), Lookup(reg, key).value)
    ensures Lookup(reg, key).None? ==>
              forall i :: 0 <= i < |reg.entries| ==> reg.entries[i].key != StoredKey(reg, key)
  {
  }

  /** A case-insensitive table finds the same command whatever the key's letter case. */
  lemma LookupIgnoresCase(reg: Registry, a: string, b: string)
    requires reg.caseInsensitive && Text.EqualIgnoringCase(a, b)
    ensures Lookup(reg, a) == Lookup(reg, b)
  {
    assert Text.Lower(a) == Text.Lower(b);
  }

  /** `cmd.all_commands.get(key)`; a plain command has no table (the `AttributeError` case). */
  function Child(c: Command, key: string): (r: Option<Command>)
    ensures r.Some? ==> IsGroup(c)
  {
    if c.subcommands.None? then None else Lookup(c.subcommands.value, key)
  }

  /** Where the help command ends up. */
  datatype HelpTarget =
    | BotHelp
    | CommandNotFound(name: string)
    | SubcommandNotFound(parent: Command, name: string)
    | GroupHelp(group: Command)
    | CommandHelp(command: Command)

  predicate Resolved(t: HelpTarget) {
    t.GroupHelp? || t.CommandHelp?
  }

  function ResolvedCommand(t: HelpTarget): Command
    requires Resolved(t)
  {
    if t.GroupHelp? then t.group else t.command
  }

  /**
   * The `for key in keys[1:]` loop from command `c`: each key must name a child
   * of the current command; the first that does not ends the walk.
   */
  function Walk(c: Command, keys: seq<string>, removeMentions: string -> string): (t: HelpTarget)
    ensures t.GroupHelp? ==> IsGroup(t.group)
    ensures t.CommandHelp? ==> !IsGroup(t.command)
    ensures !t.BotHelp? && !t.CommandNotFound?
    ensures keys == [] ==> Resolved(t) && ResolvedCommand(t) == c
    decreases |keys|
  {
    if keys == [] then (if IsGroup(c) then GroupHelp(c) else CommandHelp(c))
    else match Child(c, keys[0])
      case None => SubcommandNotFound(c, removeMentions(keys[0]))
      case Some(next) => Walk(next, keys[1..], removeMentions)
  }

  /** `command_callback`: bot help without an argument, else the first key at top level, then the walk. */
  function Resolve(root: Registry, argument: Option<string>, removeMentions: string -> string): (t: HelpTarget)
    ensures t.BotHelp? <==> argument.None?
    ensures t.CommandNotFound? <==> argument.Some? && Lookup(root, Text.SplitOnSpace(argument.value)[0]).None?
    ensures t.CommandNotFound? ==> t.name == removeMentions(Text.SplitOnSpace(argument.value)[0])
    // a known first key hands the remaining keys to the walk
    ensures argument.Some? && Lookup(root, Text.SplitOnSpace(argument.value)[0]).Some? ==>
              t == Walk(Lookup(root, Text.SplitOnSpace(argument.value)[0]).value,
                        Text.SplitOnSpace(argument.value)[1..], removeMentions)
  {
    if argument.None? then BotHelp
    else
      var keys := Text.SplitOnSpace(argument.value);
      match Lookup(root, keys[0])
      case None => CommandNotFound(removeMentions(keys[0]))
      case Some(c) => Walk(c, keys[1..], removeMentions)
  }

  /** `chain[i + 1]` is the child of `chain[i]` named `keys[i]`, starting from `c`. */
  ghost predicate IsChain(c: Command, keys: seq<string>, chain: seq<Command>) {
    && |chain| == |keys| + 1
    && chain[0] == c
    && forall i :: 0 <= i < |keys| ==> Child(chain[i], keys[i]) == Some(chain[i + 1])
  }

  /** The walk resolves to `d` exactly when the keys name a path of children from `c` to `d`. */
  lemma {:induction false} WalkResolvesIffPath(c: Command, keys: seq<string>, removeMentions: string -> string, d: Command)
    ensures (Resolved(Walk(c, keys, removeMentions)) && ResolvedCommand(Walk(c, keys, removeMentions)) == d)
            <==> exists chain :: IsChain(c, keys, chain) && chain[|keys|] == d
    decreases |keys|
  {
    var t := Walk(c, keys, removeMentions);
    if keys == [] {
      if exists chain :: IsChain(c, keys, chain) && chain[|keys|] == d {
        var chain :| IsChain(c, keys, chain) && chain[|keys|] == d;
        assert chain[0] == c;
      } else {
        assert IsChain(c, keys, [c]);
      }
    } else {
      match Child(c, keys[0])
      case None =>
        forall chain | |chain| == |keys| + 1 && chain[0] == c
          ensures !IsChain(c, keys, chain)
        {
          assert Child(chain[0], keys[0]) != Some(chain[1]);
          assert 0 < |keys|;
        }
      case Some(next) =>
        WalkResolvesIffPath(next, keys[1..], removeMentions, d);
        if Resolved(t) && ResolvedCommand(t) == d {
          var tail :| IsChain(next, keys[1..], tail) && tail[|keys[1..]|] == d;
          PrependChain(c, next, keys, tail);
        }
        if exists chain :: IsChain(c, keys, chain) && chain[|keys|] == d {
          var chain :| IsChain(c, keys, chain) && chain[|keys|] == d;
          ChainTail(c, keys, chain);
        }
    }
  }

  /** A path from the first key's child to the end of the keys, prefixed with `c`, is a path from `c`. */
  lemma PrependChain(c: Command, next: Command, keys: seq<string>, tail: seq<Command>)
    requires 0 < |keys| && Child(c, keys[0]) == Some(next)
    requires IsChain(next, keys[1..], tail)
    ensures IsChain(c, keys, [c] + tail) && ([c] + tail)[|keys|] == tail[|keys| - 1]
  {
    var chain := [c] + tail;
    forall i | 0 <= i < |keys| ensures Child(chain[i], keys[i]) == Some(chain[i + 1]) {
      if i > 0 {
        assert chain[i] == tail[i - 1] && chain[i + 1] == tail[i] && keys[i] == keys[1..][i - 1];
      }
    }
  }

  /** Dropping the first step of a path from `c` leaves a path from the first child. */
  lemma ChainTail(c: Command, keys: seq<string>, chain: seq<Command>)
    requires 0 < |keys| && IsChain(c, keys, chain)
    ensures Child(c, keys[0]) == Some(chain[1])
    ensures IsChain(chain[1], keys[1..], chain[1..]) && chain[1..][|keys[1..]|] == chain[|keys|]
  {
    var tail := chain[1..];
    forall i | 0 <= i < |keys[1..]| ensures Child(tail[i], keys[1..][i]) == Some(tail[i + 1]) {
      assert tail[i] == chain[i + 1] && tail[i + 1] == chain[i + 2] && keys[1..][i] == keys[i + 1];
    }
  }

  /**
   * The help command shows `d` exactly when the argument's first key names a
   * top-level command and the remaining keys name a path of children from it to `d`.
   */
  lemma ResolveResolvesIffPath(root: Registry, argument: Option<string>, removeMentions: string -> string, d: Command)
    ensures var t := Resolve(root, argument, removeMentions);
            (Resolved(t) && ResolvedCommand(t) == d)
            <==> argument.Some?
                 && var keys := Text.SplitOnSpace(argument.value);
                    Lookup(root, keys[0]).Some?
                    && exists chain :: IsChain(Lookup(root, keys[0]).value, keys[1..], chain) && chain[|chain| - 1] == d
  {
    if argument.Some? {
      var keys := Text.SplitOnSpace(argument.value);
      if Lookup(root, keys[0]).Some? {
        var c := Lookup(root, keys[0]).value;
        WalkResolvesIffPath(c, keys[1..], removeMentions, d);
        assert forall chain :: IsChain(c, keys[1..], chain) ==> |chain| - 1 == |keys[1..]|;
      }
    }
  }

  /**
   * When the help command reports a missing subcommand, it names the parent
   * reached from the first key through the keys before the first missing one, and that key.
   */
  lemma ResolveFailsAtFirstMiss(root: Registry, argument: Option<string>, removeMentions: string -> string)
    requires Resolve(root, argument, removeMentions).SubcommandNotFound?
    ensures var t := Resolve(root, argument, removeMentions);
            && argument.Some?
            && var keys := Text.SplitOnSpace(argument.value);
               && Lookup(root, keys[0]).Some?
               && exists i, chain :: 1 <= i < |keys| && IsChain(Lookup(root, keys[0]).value, keys[1..i], chain)
                    && chain[i - 1] == t.parent && Child(chain[i - 1], keys[i]).None?
                    && t.name == removeMentions(keys[i])
  {
    var keys := Text.SplitOnSpace(argument.value);
    var c := Lookup(root, keys[0]).value;
    var j, chain := FirstMiss(c, keys[1..], removeMentions);
    assert keys[1..][..j] == keys[1..j + 1] && keys[1..][j] == keys[j + 1];
  }

  /**
   * A walk that fails names the parent reached through the keys before the
   * first failing key, and that key; the parent is a plain command or has no
   * child under it.
   */
  lemma WalkFailsAtFirstMiss(c: Command, keys: seq<string>, removeMentions: string -> string)
    requires Walk(c, keys, removeMentions).SubcommandNotFound?
    ensures exists i, chain :: 0 <= i < |keys| && IsChain(c, keys[..i], chain)
              && chain[i] == Walk(c, keys, removeMentions).parent
              && Child(chain[i], keys[i]).None?
              && Walk(c, keys, removeMentions).name == removeMentions(keys[i])
  {
    var i, chain := FirstMiss(c, keys, removeMentions);
  }

  /** The index of the first missing key and the path to its parent, found by following the walk. */
  lemma {:induction false} FirstMiss(c: Command, keys: seq<string>, removeMentions: string -> string)
    returns (i: nat, chain: seq<Command>)
    requires Walk(c, keys, removeMentions).SubcommandNotFound?
    ensures i < |keys| && IsChain(c, keys[..i], chain)
    ensures chain[i] == Walk(c, keys, removeMentions).parent && Child(chain[i], keys[i]).None?
    ensures Walk(c, keys, removeMentions).name == removeMentions(keys[i])
    decreases |keys|
  {
    var t := Walk(c, keys, removeMentions);
    match Child(c, keys[0])
    case None =>
      assert keys[..0] == [];
      i, chain := 0, [c];
    case Some(next) =>
      var j, tail := FirstMiss(next, keys[1..], removeMentions);
      ChainCons(c, next, keys, j, tail);
      i, chain := j + 1, [c] + tail;
      assert chain[i] == tail[j] && keys[i] == keys[1..][j];
  }

  /** A path from the first key's child, prefixed with `c`, is a path from `c`. */
  lemma ChainCons(c: Command, next: Command, keys: seq<string>, i: nat, tail: seq<Command>)
    requires 0 < |keys| && i < |keys|
    requires Child(c, keys[0]) == Some(next)
    requires IsChain(next, keys[1..][..i], tail)
    ensures IsChain(c, keys[..i + 1], [c] + tail)
  {
    var chain := [c] + tail;
    assert keys[1..][..i] == keys[1..i + 1];
    forall j | 0 <= j < i + 1
      ensures Child(chain[j], keys[..i + 1][j]) == Some(chain[j + 1])
    {
      if j > 0 {
        assert keys[1..][..i][j - 1] == keys[j];
      }
    }
  }

  /** Once a key is missing, later keys are never looked at: appending keys changes nothing. */
  lemma {:induction false} WalkIgnoresLaterKeys(c: Command, keys: seq<string>, more: seq<string>,
                                                 removeMentions: string -> string)
    requires Walk(c, keys, removeMentions).SubcommandNotFound?
    ensures Walk(c, keys + more, removeMentions) == Walk(c, keys, removeMentions)
    decreases |keys|
  {
    assert (keys + more)[0] == keys[0];
    match Child(c, keys[0])
    case None =>
    case Some(next) =>
      assert (keys + more)[1..] == keys[1..] + more;
      WalkIgnoresLaterKeys(next, keys[1..], more, removeMentions);
  }
}

=== FILE: lifecycle.dfy ===
/**
 * How the launcher (run.py) sees the bot of bot.py: each pass of the retry loop
 * imports the module, builds `ServerStatus()` and calls `run()`.  The lemmas here
 * combine the bot's flags with the loop's bounds.
 */
module Lifecycle {
  import opened Wrappers
  import Supervisor
  import StatusBot
  import Text

  /** One pass of the loop as the bot experiences it. */
  datatype Launch =
    | ImportFailed(syntax: bool, install: Supervisor.InstallResult)
      // `from bot import ServerStatus` raised SyntaxError (syntax) or ImportError
    | Launched(config: StatusBot.ServerConfig, events: seq<StatusBot.Event>,
               runOutcome: Supervisor.Outcome, install: Supervisor.InstallResult)
      // the module imported; the constructor ran on `config`, then `run()` saw `events`

  /** What the launcher sees of a bot: `init_ok` and the truthiness of `restart_signal`. */
  function Observe(b: StatusBot.Bot): Supervisor.Instance {
    Supervisor.Instance(b.initOk, b.restartSignal)
  }

  /**
   * The attempt the loop observes.  A constructor that raises leaves
   * `bot_instance` as None and surfaces as an ordinary exception.
   */
  function ToAttempt(l: Launch): (a: Supervisor.Attempt)
    ensures a.instance.Some? ==> !a.instance.value.restartSignal
    ensures a.instance.Some? ==> l.Launched? && (a.instance.value.initOk <==> StatusBot.Ready in l.events)
    ensures l.Launched? && StatusBot.NewBot(l.config).Failure? ==>
              a.instance.None? && a.outcome.RaisedException?
  {
    match l
    case ImportFailed(syntax, install) =>
      Supervisor.Attempt(None, if syntax then Supervisor.RaisedSyntaxError else Supervisor.RaisedImportError, install)
    case Launched(config, events, runOutcome, install) =>
      match StatusBot.NewBot(config)
      case Failure(e) => Supervisor.Attempt(None, Supervisor.RaisedException(e.TypeName()), install)
      case Success(b) =>
        StatusBot.ApplyAllFlags(b, events);
        Supervisor.Attempt(Some(Observe(StatusBot.ApplyAll(b, events))), runOutcome, install)
  }

  function ToAttempts(launches: seq<Launch>): (script: seq<Supervisor.Attempt>)
    ensures |script| == |launches|
    ensures forall i :: 0 <= i < |launches| ==> script[i] == ToAttempt(launches[i])
    decreases |launches|
  {
    if launches == [] then [] else [ToAttempt(launches[0])] + ToAttempts(launches[1..])
  }

  /**
   * Since `restart_signal` stays None, the shipped launcher starts the bot at
   * most twice (the second time only after installing dependencies), never
   * sleeps, and two launches always end the loop.
   */
  lemma ShippedBotAtMostTwoAttempts(launches: seq<Launch>)
    ensures Supervisor.Run(Supervisor.Initial, ToAttempts(launches)).attempts <= 2
    ensures Supervisor.Run(Supervisor.Initial, ToAttempts(launches)).sleeps == []
    ensures |launches| >= 2 ==> !Supervisor.Run(Supervisor.Initial, ToAttempts(launches)).ending.StillRunning?
  {
    var script := ToAttempts(launches);
    assert Supervisor.NoRestartSignals(script) by {
      forall i | 0 <= i < |script|
        ensures !Supervisor.RestartRequested(script[i].instance)
      {
        assert script[i] == ToAttempt(launches[i]);
      }
    }
    Supervisor.NoRestartSignalAtMostTwoAttempts(Supervisor.Initial, script);
  }

  /**
   * Unless its first attempt fails with an ImportError (the one case that
   * installs dependencies and goes round again), the shipped bot is started
   * exactly once, whatever it does.
   */
  lemma ShippedBotOnceWithoutImportError(launches: seq<Launch>)
    requires launches != [] && !ToAttempt(launches[0]).outcome.RaisedImportError?
    ensures Supervisor.Run(Supervisor.Initial, ToAttempts(launches)).attempts == 1
    ensures Supervisor.Run(Supervisor.Initial, ToAttempts(launches)).installs == 0
    ensures !Supervisor.Run(Supervisor.Initial, ToAttempts(launches)).ending.StillRunning?
  {
    var script := ToAttempts(launches);
    assert script[0] == ToAttempt(launches[0]);
    Supervisor.OnceWithoutImportErrorOrRestart(Supervisor.Initial, script);
  }

  /** A configuration rejected by the constructor ends the run after that one attempt, without a retry. */
  lemma InvalidConfigEndsRun(l: Launch, later: seq<Launch>)
    requires l.Launched? && StatusBot.NewBot(l.config).Failure?
    ensures Supervisor.Run(Supervisor.Initial, ToAttempts([l] + later)).attempts == 1
    ensures Supervisor.Run(Supervisor.Initial, ToAttempts([l] + later)).ending
            == Supervisor.Ended(Supervisor.NoRestart)
  {
    var e := StatusBot.NewBot(l.config).error;
    assert !Supervisor.IsLoginFailure(e.TypeName()) by {
      NotLoginFailure(e);
    }
    assert ToAttempts([l] + later)[0] == ToAttempt(l);
  }

  /** Neither configuration error's type name contains "LoginFailure". */
  lemma NotLoginFailure(e: StatusBot.ConfigError)
    ensures !Supervisor.IsLoginFailure(e.TypeName())
  {
    var n := e.TypeName();
    assert 'L' !in n;
    Text.MissingFirstCharNotContained(n, "LoginFailure");
  }
}

=== FILE: sanity_checks.dfy ===
/**
 * The launcher's start-up predicates (run.py): the Python version floor, the
 * console-encoding test and the free-disk-space warning.
 */
module SanityChecks {
  import Text

  /** Python's `<` on tuples of integers: element-wise, and a proper prefix is smaller. */
  predicate TupleLess(a: seq<int>, b: seq<int>)
    decreases |a|
  {
    if b == [] then false
    else if a == [] then true
    else if a[0] != b[0] then a[0] < b[0]
    else TupleLess(a[1..], b[1..])
  }

  /** `sys.version_info`; the release level and serial never reach the comparison with `(3, 8)`. */
  datatype VersionInfo = VersionInfo(major: int, minor: int, micro: int, releaseLevel: string, serial: int)

  const RequiredVersion: seq<int> := [3, 8]

  /** `req_ensure_py3`: the version check fails exactly below 3.8, that is major below 3, or major 3 with minor below 8. */
  function PythonTooOld(v: VersionInfo): (tooOld: bool)
    ensures tooOld <==> v.major < 3 || (v.major == 3 && v.minor < 8)
  {
    var a := [v.major, v.minor, v.micro];
    assert a[1..] == [v.minor, v.micro];
    assert [v.minor, v.micro][1..] == [v.micro];
    assert RequiredVersion[1..] == [8];
    assert TupleLess([v.minor, v.micro], [8]) <==> v.minor < 8 || (v.minor == 8 && TupleLess([v.micro], []));
    TupleLess(a, RequiredVersion)
  }

  /** Removes every `-` from `s`, keeping the other characters in order. */
  function StripDashes(s: string): (r: string)
    ensures '-' !in r
    ensures |r| <= |s|
    ensures '-' !in s ==> r == s
    decreases |s|
  {
    if s == [] then []
    else if s[0] == '-' then StripDashes(s[1..])
    else [s[0]] + StripDashes(s[1..])
  }

  /** Dropping the dashes one by one is `str.replace("-", "")`. */
  lemma {:induction false} StripDashesIsReplace(s: string)
    ensures StripDashes(s) == Text.ReplaceAll(s, "-", "")
    decreases |s|
  {
    if s != [] {
      StripDashesIsReplace(s[1..]);
      assert s[..|"-"|] == [s[0]];
      assert s[|"-"|..] == s[1..];
    }
  }

  /**
   * `req_ensure_encoding` re-wraps standard output exactly when this holds: always
   * on a platform starting with "win"; elsewhere exactly when the encoding, dashes
   * dropped, does not spell "utf8" in any letter case.
   */
  function NeedsUtf8Rewrap(platform: string, encoding: string): (rewrap: bool)
    ensures Text.StartsWith(platform, "win") ==> rewrap
    ensures !Text.StartsWith(platform, "win") ==>
              (rewrap <==> !Text.EqualIgnoringCase(StripDashes(encoding), "utf8"))
  {
    StripDashesIsReplace(encoding);
    Text.EqualIgnoringCaseLower(StripDashes(encoding), "utf8");
    Text.StartsWith(platform, "win") || Text.Lower(Text.ReplaceAll(encoding, "-", "")) != "utf8"
  }

  /** "UTF-8" on Linux is already UTF-8: no re-wrap. */
  lemma EncodingUpperDashed(platform: string, encoding: string)
    requires platform == "linux" && encoding == "UTF-8"
    ensures !NeedsUtf8Rewrap(platform, encoding)
  {
    StripUtf8Dash(encoding);
    assert Text.EqualIgnoringCase("UTF8", "utf8");
    assert !Text.StartsWith(platform, "win") by {
      assert platform[..3][0] == 'l';
    }
  }

  /** "UTF-8" without its dash, one character at a time. */
  lemma StripUtf8Dash(encoding: string)
    requires encoding == "UTF-8"
    ensures StripDashes(encoding) == "UTF8"
  {
    var tail := encoding[3..];
    assert tail == "-8" && tail[1..] == "8" && tail[1..][1..] == [];
    assert StripDashes(tail[1..]) == "8";
    assert StripDashes(tail) == "8";
    assert encoding[2..] == [encoding[2]] + tail && StripDashes(encoding[2..]) == "F8";
    assert encoding[1..] == [encoding[1]] + encoding[2..] && StripDashes(encoding[1..]) == "TF8";
    assert encoding == [encoding[0]] + encoding[1..];
  }

  /** On Windows the console is re-wrapped whatever the encoding. */
  lemma EncodingWindows(encoding: string)
    ensures NeedsUtf8Rewrap("win32", encoding)
  {
  }

  /** "ascii" is not UTF-8: re-wrap. */
  lemma EncodingAscii()
    ensures NeedsUtf8Rewrap("linux", "ascii")
  {
  }

  /** The default `warnlimit_mb` of `opt_check_disk_space`. */
  const DefaultWarnLimitMb: nat := 200

  /**
   * The warning test as written: the limit is multiplied by 1024 * 2, not by
   * 1024 * 1024, so it warns below `warnLimitMb` units of 2 KiB.
   */
  function LowDiskSpaceAsWritten(freeBytes: nat, warnLimitMb: nat): (warns: bool)
    ensures warns <==> freeBytes / 2048 < warnLimitMb
  {
    freeBytes < warnLimitMb * 1024 * 2
  }

  /** The warning test the message promises: fewer than `warnLimitMb` mebibytes free. */
  predicate LowDiskSpace(freeBytes: nat, warnLimitMb: nat) {
    freeBytes < warnLimitMb * 1024 * 1024
  }

  /**
   * With one mebibyte free, the message "Less than 200MB of free space remains"
   * is due, but the test as written stays silent: its threshold is 400 KiB.
   */
  lemma LowDiskSpaceAsWrittenMissesOneMiB()
    ensures !LowDiskSpaceAsWritten(1024 * 1024, DefaultWarnLimitMb)
    ensures LowDiskSpace(1024 * 1024, DefaultWarnLimitMb)
    ensures DefaultWarnLimitMb * 1024 * 2 == 409600
  {
  }

  /** The corrected test warns exactly when the free space is below the limit in whole mebibytes. */
  lemma LowDiskSpaceIff(freeBytes: nat, warnLimitMb: nat)
    ensures LowDiskSpace(freeBytes, warnLimitMb) <==> freeBytes / (1024 * 1024) < warnLimitMb
  {
  }
}

=== FILE: status_bot.dfy ===
/**
 * The bot client of bot.py: the configuration checks made by the `ServerStatus`
 * constructor, the lifecycle flags the launcher reads, the extension loading of
 * `setup_hook` and the origin string `on_command` logs.
 */
module StatusBot {
  import opened Wrappers
  import Text

  /** The parsed `config.yml`. */
  datatype ServerConfig = ServerConfig(prefix: string, serverType: string, refreshRate: int, botToken: string)

  /** `InvalidServerType` and `InvalidRefreshRate`, each carrying the offending value. */
  datatype ConfigError = InvalidServerType(serverType: string) | InvalidRefreshRate(refreshRate: int) {

    /** `str(type(e))` as the launcher sees it after `from bot import ServerStatus`. */
    function TypeName(): string {
      match this
      case InvalidServerType(_) => "<class 'bot.InvalidServerType'>"
      case InvalidRefreshRate(_) => "<class 'bot.InvalidRefreshRate'>"
    }
  }

  const MinRefreshRate: int := 30
  const ServerTypes: seq<string> := ["java", "bedrock"]

  /** The options `ServerStatus` passes to the framework's `Bot` constructor. */
  datatype ClientSettings = ClientSettings(
    caseInsensitive: bool,
    activity: string,
    messageContentIntent: bool,
    guildsIntent: bool,
    reactionsIntent: bool)

  const Settings: ClientSettings := ClientSettings(true, "Starting up...", true, true, true)

  /** The state of a constructed bot: its configuration, client options and the two flags the launcher reads. */
  datatype Bot = Bot(config: ServerConfig, client: ClientSettings, initOk: bool, restartSignal: bool)

  /** The server-type check: `server_type.lower() in ["java", "bedrock"]`. */
  predicate ServerTypeOk(serverType: string) {
    Text.Lower(serverType) in ServerTypes
  }

  /**
   * `ServerStatus()`: both configuration checks, server type first, and only then
   * the framework client.  `restart_signal` starts as `None`, which is falsy.
   */
  function NewBot(config: ServerConfig): (r: Result<Bot, ConfigError>)
    ensures r.Failure? <==> !ServerTypeOk(config.serverType) || config.refreshRate < MinRefreshRate
    ensures !ServerTypeOk(config.serverType) ==> r == Failure(InvalidServerType(config.serverType))
    ensures ServerTypeOk(config.serverType) && config.refreshRate < MinRefreshRate ==>
              r == Failure(InvalidRefreshRate(config.refreshRate))
    ensures r.Success? ==> r.value.config == config && r.value.client == Settings
                           && !r.value.initOk && !r.value.restartSignal
  {
    if !ServerTypeOk(config.serverType) then Failure(InvalidServerType(config.serverType))
    else if config.refreshRate < MinRefreshRate then Failure(InvalidRefreshRate(config.refreshRate))
    else Success(Bot(config, Settings, false, false))
  }

  /** The server type is accepted exactly when it is "java" or "bedrock" in any letter case. */
  lemma ServerTypeOkIff(serverType: string)
    ensures ServerTypeOk(serverType) <==>
              Text.EqualIgnoringCase(serverType, "java") || Text.EqualIgnoringCase(serverType, "bedrock")
  {
    var l := Text.Lower(serverType);
    if Text.EqualIgnoringCase(serverType, "java") {
      assert l == "java";
    } else if Text.EqualIgnoringCase(serverType, "bedrock") {
      assert l == "bedrock";
    } else {
      assert l != "java" && l != "bedrock";
    }
  }

  /** 30 is the smallest accepted refresh rate. */
  lemma RefreshRateBoundary(config: ServerConfig)
    requires ServerTypeOk(config.serverType)
    ensures config.refreshRate == 30 ==> NewBot(config).Success?
    ensures config.refreshRate == 29 ==> NewBot(config) == Failure(InvalidRefreshRate(29))
  {
  }

  /** Events the framework delivers to the bot after construction. */
  datatype Event = Ready | CommandInvoked | CommandFailed | Closed

  /** `on_ready` sets `init_ok`; no handler touches `restart_signal`. */
  function Apply(b: Bot, e: Event): (r: Bot)
    ensures r.restartSignal == b.restartSignal
    ensures r.initOk <==> b.initOk || e == Ready
    ensures r.config == b.config
  {
    match e
    case Ready => b.(initOk := true)
    case _ => b
  }

  function ApplyAll(b: Bot, events: seq<Event>): Bot
    decreases |events|
  {
    if events == [] then b else ApplyAll(Apply(b, events[0]), events[1..])
  }

  /**
   * Over any run of events, `init_ok` holds exactly when it held already or
   * `on_ready` fired, and the restart signal never changes.
   */
  lemma {:induction false} ApplyAllFlags(b: Bot, events: seq<Event>)
    ensures ApplyAll(b, events).restartSignal == b.restartSignal
    ensures ApplyAll(b, events).initOk <==> b.initOk || Ready in events
    decreases |events|
  {
    if events != [] {
      ApplyAllFlags(Apply(b, events[0]), events[1..]);
      assert events == [events[0]] + events[1..];
    }
  }

  /** A bot built by `ServerStatus()` never asks to be restarted, whatever happens to it. */
  lemma BotNeverRequestsRestart(config: ServerConfig, events: seq<Event>)
    requires NewBot(config).Success?
    ensures !ApplyAll(NewBot(config).value, events).restartSignal
  {
    ApplyAllFlags(NewBot(config).value, events);
  }

  /** What `on_command` reads to name the origin: `ctx.guild` (absent in a direct message) and `ctx.channel`. */
  datatype Invocation = Invocation(guild: Option<string>, channel: string)

  /** The origin string of the `on_command` log line. */
  function Destination(ctx: Invocation): (r: string)
    ensures r == "Private Message" <==> ctx.guild.None?
    ensures ctx.guild.Some? ==> Text.StartsWith(r, "#" + ctx.channel + " (")
    ensures ctx.guild.Some? ==> r[|r| - 1] == ')'
    ensures ctx.guild.Some? ==> |r| == |ctx.channel| + |ctx.guild.value| + 4
    ensures ctx.guild.Some? ==> r[|ctx.channel| + 3..|r| - 1] == ctx.guild.value
  {
    if ctx.guild.None? then "Private Message"
    else
      var r := "#" + ctx.channel + " (" + ctx.guild.value + ")";
      assert r[0] == '#';
      r
  }

  const InitialExtensions: seq<string> := ["cogs.status", "cogs.admin", "cogs.help"]

  /** The elements `x` of `names` with `loads(x) == outcome`, in order. */
  function Filter(names: seq<string>, loads: string -> bool, outcome: bool): (r: seq<string>)
    ensures |r| <= |names|
    decreases |names|
  {
    if names == [] then []
    else if loads(names[0]) == outcome then [names[0]] + Filter(names[1..], loads, outcome)
    else Filter(names[1..], loads, outcome)
  }

  /** `Filter` keeps exactly the names whose load result is `outcome`. */
  lemma {:induction false} FilterMembers(names: seq<string>, loads: string -> bool, outcome: bool)
    ensures forall x :: x in Filter(names, loads, outcome) <==> x in names && loads(x) == outcome
    decreases |names|
  {
    if names != [] {
      FilterMembers(names[1..], loads, outcome);
      assert names == [names[0]] + names[1..];
    }
  }

  /** Every name lands on exactly one side: the two filters together are as long as the input. */
  lemma {:induction false} FilterPartition(names: seq<string>, loads: string -> bool)
    ensures |Filter(names, loads, true)| + |Filter(names, loads, false)| == |names|
    decreases |names|
  {
    if names != [] {
      FilterPartition(names[1..], loads);
    }
  }

  /**
   * The extension loop of `setup_hook`: every extension is tried, in order, and
   * a failure is logged without stopping the loop.
   */
  method LoadExtensions(extensions: seq<string>, loads: string -> bool)
    returns (loaded: seq<string>, failed: seq<string>)
    ensures loaded == Filter(extensions, loads, true)
    ensures failed == Filter(extensions, loads, false)
  {
    loaded, failed := [], [];
    var i := 0;
    while i < |extensions|
      invariant 0 <= i <= |extensions|
      invariant loaded + Filter(extensions[i..], loads, true) == Filter(extensions, loads, true)
      invariant failed + Filter(extensions[i..], loads, false) == Filter(extensions, loads, false)
    {
      var ext := extensions[i];
      assert extensions[i..][1..] == extensions[i + 1..];
      ghost var restOk := Filter(extensions[i + 1..], loads, true);
      ghost var restFailed := Filter(extensions[i + 1..], loads, false);
      if loads(ext) {
        assert Filter(extensions[i..], loads, true) == [ext] + restOk;
        assert Filter(extensions[i..], loads, false) == restFailed;
        loaded := loaded + [ext];
        assert loaded + restOk == (loaded[..|loaded| - 1]) + ([ext] + restOk);
      } else {
        assert Filter(extensions[i..], loads, true) == restOk;
        assert Filter(extensions[i..], loads, false) == [ext] + restFailed;
        failed := failed + [ext];
        assert failed + restFailed == (failed[..|failed| - 1]) + ([ext] + restFailed);
      }
      i := i + 1;
    }
  }

  /** `setup_hook`: the three initial extensions, then jishaku, best-effort. */
  method SetupHook(loads: string -> bool) returns (loaded: seq<string>, failed: seq<string>, jishaku: bool)
    ensures forall x :: x in loaded <==> x in InitialExtensions && loads(x)
    ensures forall x :: x in failed <==> x in InitialExtensions && !loads(x)
    ensures |loaded| + |failed| == |InitialExtensions|
    ensures jishaku == loads("jishaku")
  {
    loaded, failed := LoadExtensions(InitialExtensions, loads);
    FilterMembers(InitialExtensions, loads, true);
    FilterMembers(InitialExtensions, loads, false);
    FilterPartition(InitialExtensions, loads);
    jishaku := loads("jishaku");
  }
}

=== FILE: string_order.dfy ===
/** Python's ordering of `str` values: lexicographic by code point, a proper prefix first. */
module StringOrder {

  /** `a <= b` on Python strings. */
  predicate StrLe(a: string, b: string)
    decreases |a|
  {
    if a == [] then true
    else if b == [] then false
    else if a[0] != b[0] then a[0] < b[0]
    else StrLe(a[1..], b[1..])
  }

  /** `a < b` on Python strings. */
  predicate StrLess(a: string, b: string) {
    !StrLe(b, a)
  }

  lemma {:induction false} StrLeTotal(a: string, b: string)
    ensures StrLe(a, b) || StrLe(b, a)
    decreases |a|
  {
    if a != [] && b != [] && a[0] == b[0] {
      StrLeTotal(a[1..], b[1..]);
    }
  }

  lemma {:induction false} StrLeTransitive(a: string, b: string, c: string)
    requires StrLe(a, b) && StrLe(b, c)
    ensures StrLe(a, c)
    decreases |a|
  {
    if a != [] && b != [] && c != [] && a[0] == b[0] && b[0] == c[0] {
      StrLeTransitive(a[1..], b[1..], c[1..]);
    }
  }

  lemma {:induction false} StrLeAntisymmetric(a: string, b: string)
    requires StrLe(a, b) && StrLe(b, a)
    ensures a == b
    decreases |a|
  {
    if a != [] {
      StrLeAntisymmetric(a[1..], b[1..]);
      assert a == [a[0]] + a[1..] && b == [b[0]] + b[1..];
    }
  }
}

=== FILE: supervisor.dfy ===
/**
 * The launcher's retry loop (`main` in run.py) as a step function over abstract
 * attempt outcomes.  One `Attempt` describes what one pass of the loop observed:
 * the bot instance, if the constructor returned one, how `run()` (or the import
 * before it) ended, and what the dependency installer would return if called.
 */
module Supervisor {
  import opened Wrappers
  import Text

  /** `max_wait_time`: the cap on the back-off, in seconds. */
  const MaxWaitTime: nat := 60

  /** The loop gives up on a bot that never became ready once `loops` exceeds this. */
  const CrashLoopLimit: nat := 2

  /** What the launcher can see of a bot instance: `init_ok` and the truthiness of `restart_signal`. */
  datatype Instance = Instance(initOk: bool, restartSignal: bool)

  /** How one attempt (import, construction and `run()`) ended. */
  datatype Outcome =
    | Returned                          // `run()` returned normally
    | RaisedSyntaxError
    | RaisedImportError
    | RaisedException(typeName: string) // any other `Exception`; `typeName` is `str(type(e))`
    | RaisedBaseException               // not an `Exception` (KeyboardInterrupt, SystemExit, ...)

  /** What `PIP.run_install` gives back. */
  datatype InstallResult =
    | ReturnCode(code: int)   // the exit status, 0 when pip succeeded
    | NoReturnValue           // pip raised something else: printed, and `None` returned
    | PipUnavailable          // pip cannot be imported: `RuntimeError` is raised

  datatype Attempt = Attempt(instance: Option<Instance>, outcome: Outcome, install: InstallResult)

  /** The loop variables `tried_requirementstxt` and `loops`. */
  datatype State = State(triedRequirements: bool, loops: nat)

  const Initial: State := State(false, 0)

  /** Which `break` statement ended the loop. */
  datatype ExitReason =
    | SyntaxBug            // `except SyntaxError`
    | InstallFailed        // the installer returned a truthy code
    | RepeatedImportError  // a second ImportError
    | LoginFailed          // an exception whose type name contains "LoginFailure"
    | CrashLoop            // the `break` in `finally`
    | NoRestart            // no instance, or no restart signal

  /** Where control goes after one pass of the loop body. */
  datatype Next =
    | RetryNow                // `continue` after a successful install
    | RetryAfter(sleep: nat)  // restart requested; sleep first
    | Stop(reason: ExitReason)
    | Escape                  // an exception leaves `main`

  datatype StepResult = StepResult(state: State, installed: bool, next: Next)

  /** What the `except` clauses leave pending when they finish, before `finally` runs. */
  datatype Pending = FallThrough | PendingBreak(reason: ExitReason) | PendingContinue | PendingRaise

  /** Python truthiness of the installer's return value. */
  predicate InstallErrored(r: InstallResult) {
    r.ReturnCode? && r.code != 0
  }

  /** `"LoginFailure" in str(type(e))`. */
  predicate IsLoginFailure(typeName: string) {
    Text.Contains(typeName, "LoginFailure")
  }

  /** `not bot_instance or not bot_instance.init_ok`. */
  predicate NeverReady(instance: Option<Instance>) {
    instance.None? || !instance.value.initOk
  }

  /** `bot_instance and getattr(bot_instance, "restart_signal", False)`. */
  predicate RestartRequested(instance: Option<Instance>) {
    instance.Some? && instance.value.restartSignal
  }

  /** `min(loops * 2, max_wait_time)`. */
  function Backoff(loops: nat): (sleep: nat)
    ensures sleep <= MaxWaitTime
    ensures sleep <= 2 * loops
    ensures loops >= 1 ==> sleep >= 2
    ensures sleep < MaxWaitTime ==> sleep == 2 * loops
  {
    if loops * 2 < MaxWaitTime then loops * 2 else MaxWaitTime
  }

  /** The `except` clauses: the new `tried_requirementstxt`, whether pip ran, and what is pending. */
  function Handle(s: State, a: Attempt): (r: (bool, bool, Pending))
    // pip runs only on the first ImportError, and the flag is only ever set
    ensures r.1 <==> !s.triedRequirements && a.outcome.RaisedImportError?
    ensures r.0 <==> s.triedRequirements || a.outcome.RaisedImportError?
    // the install `continue` is the only pending continue
    ensures r.2 == PendingContinue <==> r.1 && !InstallErrored(a.install) && !a.install.PipUnavailable?
    // a clean return and an ordinary non-login exception fall through to `finally`
    ensures r.2 == FallThrough <==>
              a.outcome.Returned? || (a.outcome.RaisedException? && !IsLoginFailure(a.outcome.typeName))
    // the exception propagates for a BaseException and when pip itself cannot be imported
    ensures r.2 == PendingRaise <==> a.outcome.RaisedBaseException? || (r.1 && a.install.PipUnavailable?)
    // which `break` each remaining handler leaves pending
    ensures r.2 == PendingBreak(SyntaxBug) <==> a.outcome.RaisedSyntaxError?
    ensures r.2 == PendingBreak(InstallFailed) <==> r.1 && InstallErrored(a.install)
    ensures r.2 == PendingBreak(RepeatedImportError) <==> a.outcome.RaisedImportError? && s.triedRequirements
    ensures r.2 == PendingBreak(LoginFailed) <==>
              a.outcome.RaisedException? && IsLoginFailure(a.outcome.typeName)
    ensures r.2 != PendingBreak(CrashLoop) && r.2 != PendingBreak(NoRestart)
  {
    match a.outcome
    case Returned => (s.triedRequirements, false, FallThrough)
    case RaisedSyntaxError => (s.triedRequirements, false, PendingBreak(SyntaxBug))
    case RaisedImportError =>
      if !s.triedRequirements then
        if a.install.PipUnavailable? then (true, true, PendingRaise)
        else if InstallErrored(a.install) then (true, true, PendingBreak(InstallFailed))
        else (true, true, PendingContinue)
      else (true, false, PendingBreak(RepeatedImportError))
    case RaisedException(typeName) =>
      if IsLoginFailure(typeName) then (s.triedRequirements, false, PendingBreak(LoginFailed))
      else (s.triedRequirements, false, FallThrough)
    case RaisedBaseException => (s.triedRequirements, false, PendingRaise)
  }

  /**
   * One pass of the `while tryagain:` body: the `except` clauses, then `finally`
   * (whose `break` overrides whatever the handlers left pending, including a
   * propagating exception), then the restart check and the back-off.
   */
  function Step(s: State, a: Attempt): (r: StepResult)
    // the installer runs only on the first ImportError, and the flag is never cleared
    ensures r.installed <==> !s.triedRequirements && a.outcome.RaisedImportError?
    ensures r.state.triedRequirements <==> s.triedRequirements || r.installed
    // `finally` breaks before the increment; otherwise `loops` grows by exactly one
    ensures r.next == Stop(CrashLoop) <==> NeverReady(a.instance) && s.loops > CrashLoopLimit
    ensures r.state.loops == if r.next == Stop(CrashLoop) then s.loops else s.loops + 1
    // the only ways round the loop again
    ensures r.next.RetryNow? <==>
              r.installed && !InstallErrored(a.install) && !a.install.PipUnavailable?
              && !(NeverReady(a.instance) && s.loops > CrashLoopLimit)
    ensures r.next.RetryAfter? ==>
              RestartRequested(a.instance) && 2 <= r.next.sleep <= MaxWaitTime
              && r.next.sleep == Backoff(r.state.loops)
    ensures r.next.RetryAfter? <==>
              (a.outcome.Returned? || (a.outcome.RaisedException? && !IsLoginFailure(a.outcome.typeName)))
              && RestartRequested(a.instance) && !(NeverReady(a.instance) && s.loops > CrashLoopLimit)
    // a falling-through attempt without a restart signal ends the loop
    ensures r.next == Stop(NoRestart) <==>
              (a.outcome.Returned? || (a.outcome.RaisedException? && !IsLoginFailure(a.outcome.typeName)))
              && !RestartRequested(a.instance) && !(NeverReady(a.instance) && s.loops > CrashLoopLimit)
    // an exception escapes `main` unless `finally` breaks first
    ensures r.next == Escape <==>
              (a.outcome.RaisedBaseException? || (r.installed && a.install.PipUnavailable?))
              && !(NeverReady(a.instance) && s.loops > CrashLoopLimit)
    // outcomes that never retry
    ensures a.outcome.RaisedSyntaxError? ==> r.next.Stop?
    ensures a.outcome.RaisedException? && IsLoginFailure(a.outcome.typeName) ==> r.next.Stop?
    ensures a.outcome.RaisedImportError? && s.triedRequirements ==> r.next.Stop?
    ensures r.installed && InstallErrored(a.install) ==> r.next.Stop?
  {
    var (tried, installed, pending) := Handle(s, a);
    if NeverReady(a.instance) && s.loops > CrashLoopLimit then
      StepResult(State(tried, s.loops), installed, Stop(CrashLoop))
    else
      var st := State(tried, s.loops + 1);
      match pending
      case PendingBreak(reason) => StepResult(st, installed, Stop(reason))
      case PendingContinue => StepResult(st, installed, RetryNow)
      case PendingRaise => StepResult(st, installed, Escape)
      case FallThrough =>
        if !RestartRequested(a.instance) then StepResult(st, installed, Stop(NoRestart))
        else StepResult(st, installed, RetryAfter(Backoff(st.loops)))
  }

  /** How a scripted run ended: a `break`, an escaping exception, or the script ran out first. */
  datatype Ending = Ended(reason: ExitReason) | Escaped | StillRunning

  /** What a run of the loop did: the attempts it made, the installs it ran, the sleeps it took. */
  datatype Trace = Trace(final: State, attempts: nat, installs: nat, sleeps: seq<nat>, ending: Ending)

  /** Runs the loop from `s` over the scripted attempts, one per pass, until it leaves the loop. */
  function Run(s: State, script: seq<Attempt>): (t: Trace)
    ensures t.attempts <= |script|
    ensures t.ending.StillRunning? ==> t.attempts == |script|
    ensures t.installs <= if s.triedRequirements then 0 else 1
    ensures t.final.triedRequirements <==> s.triedRequirements || t.installs == 1
    ensures forall i :: 0 <= i < |t.sleeps| ==> 2 <= t.sleeps[i] <= MaxWaitTime
    ensures |t.sleeps| <= t.attempts
    ensures !t.ending.StillRunning? ==> |t.sleeps| < t.attempts
    decreases |script|
  {
    if script == [] then Trace(s, 0, 0, [], StillRunning)
    else
      var r := Step(s, script[0]);
      var n := if r.installed then 1 else 0;
      match r.next
      case Stop(reason) => Trace(r.state, 1, n, [], Ended(reason))
      case Escape => Trace(r.state, 1, n, [], Escaped)
      case RetryNow =>
        var t := Run(r.state, script[1..]);
        Trace(t.final, t.attempts + 1, t.installs + n, t.sleeps, t.ending)
      case RetryAfter(d) =>
        var t := Run(r.state, script[1..]);
        Trace(t.final, t.attempts + 1, t.installs + n, [d] + t.sleeps, t.ending)
  }

  /** No attempt of the script carries a truthy restart signal. */
  predicate NoRestartSignals(script: seq<Attempt>) {
    forall i :: 0 <= i < |script| ==> !RestartRequested(script[i].instance)
  }

  /** No attempt of the script produced an instance that reached `init_ok`. */
  predicate NeverReadyThroughout(script: seq<Attempt>) {
    forall i :: 0 <= i < |script| ==> NeverReady(script[i].instance)
  }

  /**
   * Without a restart signal the only way round the loop is the one `continue`
   * after installing dependencies: at most two attempts, never a sleep, and a
   * script of two attempts always ends the loop.
   */
  lemma {:induction false} NoRestartSignalAtMostTwoAttempts(s: State, script: seq<Attempt>)
    requires NoRestartSignals(script)
    ensures Run(s, script).attempts <= (if s.triedRequirements then 1 else 2)
    ensures Run(s, script).sleeps == []
    ensures |script| >= 2 ==> !Run(s, script).ending.StillRunning?
    ensures s.triedRequirements && |script| >= 1 ==> !Run(s, script).ending.StillRunning?
    decreases |script|
  {
    if script != [] {
      var r := Step(s, script[0]);
      assert !RestartRequested(script[0].instance);
      if r.next.RetryNow? {
        assert r.state.triedRequirements;
        var rest := script[1..];
        assert NoRestartSignals(rest) by {
          forall i | 0 <= i < |rest| ensures !RestartRequested(rest[i].instance) {
            assert rest[i] == script[i + 1];
          }
        }
        NoRestartSignalAtMostTwoAttempts(r.state, rest);
      }
    }
  }

  /**
   * A login failure (a bad token) is never retried, restart signal or not: the
   * run ends after that attempt, through its own `break` unless `finally` breaks first.
   */
  lemma LoginFailureStopsAtOnce(s: State, script: seq<Attempt>)
    requires script != [] && script[0].outcome.RaisedException? && IsLoginFailure(script[0].outcome.typeName)
    ensures Run(s, script).attempts == 1
    ensures Run(s, script).sleeps == []
    ensures Run(s, script).ending == Ended(if NeverReady(script[0].instance) && s.loops > CrashLoopLimit
                                           then CrashLoop else LoginFailed)
  {
    var r := Step(s, script[0]);
    assert r.next == Stop(if NeverReady(script[0].instance) && s.loops > CrashLoopLimit then CrashLoop else LoginFailed);
  }

  /** An attempt that is neither an ImportError nor asks to restart is the last one. */
  lemma OnceWithoutImportErrorOrRestart(s: State, script: seq<Attempt>)
    requires script != [] && !script[0].outcome.RaisedImportError? && !RestartRequested(script[0].instance)
    ensures Run(s, script).attempts == 1
    ensures Run(s, script).installs == 0
    ensures !Run(s, script).ending.StillRunning?
  {
    var r := Step(s, script[0]);
    assert r.next.Stop? || r.next.Escape?;
  }

  /**
   * A bot that never becomes ready is given at most `4 - loops` attempts (one
   * when `loops` is already past the limit), whatever the restart signals say,
   * and a script that long always ends the loop.
   */
  lemma {:induction false} CrashLoopBound(s: State, script: seq<Attempt>)
    requires NeverReadyThroughout(script)
    ensures Run(s, script).attempts <= CrashBudget(s.loops)
    ensures |script| >= CrashBudget(s.loops) ==> !Run(s, script).ending.StillRunning?
    decreases |script|
  {
    if script != [] {
      var r := Step(s, script[0]);
      assert NeverReady(script[0].instance);
      if r.next.RetryNow? || r.next.RetryAfter? {
        var rest := script[1..];
        assert NeverReadyThroughout(rest) by {
          forall i | 0 <= i < |rest| ensures NeverReady(rest[i].instance) {
            assert rest[i] == script[i + 1];
          }
        }
        CrashLoopBound(r.state, rest);
      }
    }
  }

  /** The most attempts a never-ready bot gets when the loop counter stands at `loops`. */
  function CrashBudget(loops: nat): (n: nat)
    ensures n >= 1
    ensures loops > CrashLoopLimit ==> n == 1
  {
    if loops > CrashLoopLimit then 1 else CrashLoopLimit + 2 - loops
  }

  /** An attempt whose bot crashed in `run()` without becoming ready but asked to be restarted. */
  predicate CrashedWithRestart(a: Attempt) {
    a.instance == Some(Instance(false, true))
    && a.outcome.RaisedException? && !IsLoginFailure(a.outcome.typeName)
  }

  /**
   * The budget is reached: a bot that keeps crashing before it is ready but
   * keeps asking to be restarted gets exactly `CrashBudget(loops)` attempts,
   * and the run ends through the `break` in `finally`.
   */
  lemma {:induction false} CrashBudgetIsTight(s: State, script: seq<Attempt>)
    requires |script| >= CrashBudget(s.loops)
    requires forall i :: 0 <= i < |script| ==> CrashedWithRestart(script[i])
    ensures Run(s, script).attempts == CrashBudget(s.loops)
    ensures Run(s, script).ending == Ended(CrashLoop)
    ensures Run(s, script).installs == 0
    decreases |script|
  {
    assert CrashedWithRestart(script[0]);
    var r := Step(s, script[0]);
    if s.loops <= CrashLoopLimit {
      assert r.next.RetryAfter? && r.state.loops == s.loops + 1;
      assert CrashBudget(r.state.loops) == CrashBudget(s.loops) - 1;
      var rest := script[1..];
      assert forall i :: 0 <= i < |rest| ==> CrashedWithRestart(rest[i]) by {
        forall i | 0 <= i < |rest| ensures CrashedWithRestart(rest[i]) {
          assert rest[i] == script[i + 1];
        }
      }
      CrashBudgetIsTight(r.state, rest);
    }
  }

  /**
   * A bot that always crashes before becoming ready, with a restart signal set,
   * is started exactly four times (loops = 0, 1, 2, 3), sleeping 2, 4 and 6
   * seconds in between; the fourth pass leaves through the `break` in `finally`.
   */
  lemma CrashingBotWithRestartSignal(script: seq<Attempt>)
    requires |script| >= 4
    requires forall i :: 0 <= i < |script| ==> CrashedWithRestart(script[i])
    ensures Run(Initial, script) == Trace(State(false, 3), 4, 0, [2, 4, 6], Ended(CrashLoop))
  {
    CrashBudgetIsTight(Initial, script);
    CrashBackoffSchedule(Initial, script);
    assert CrashSleeps(3) == [];
    assert CrashSleeps(2) == [6];
    assert CrashSleeps(1) == [4, 6];
  }

  /** The sleeps of a bot that keeps crashing with a restart signal, from `loops` on. */
  function CrashSleeps(loops: nat): seq<nat>
    decreases if loops > CrashLoopLimit then 0 else CrashLoopLimit + 1 - loops
  {
    if loops > CrashLoopLimit then [] else [Backoff(loops + 1)] + CrashSleeps(loops + 1)
  }

  /**
   * The schedule of the same run: it sleeps `Backoff(loops + 1)`, `Backoff(loops + 2)`, ...
   * until `loops` passes the limit, and stops with `loops` one past the limit.
   */
  lemma {:induction false} CrashBackoffSchedule(s: State, script: seq<Attempt>)
    requires |script| >= CrashBudget(s.loops)
    requires forall i :: 0 <= i < |script| ==> CrashedWithRestart(script[i])
    ensures Run(s, script).sleeps == CrashSleeps(s.loops)
    ensures Run(s, script).final ==
              State(s.triedRequirements, if s.loops > CrashLoopLimit then s.loops else CrashLoopLimit + 1)
    decreases |script|
  {
    assert CrashedWithRestart(script[0]);
    if s.loops <= CrashLoopLimit {
      var rest := script[1..];
      assert forall i :: 0 <= i < |rest| ==> CrashedWithRestart(rest[i]) by {
        forall i | 0 <= i < |rest| ensures CrashedWithRestart(rest[i]) {
          assert rest[i] == script[i + 1];
        }
      }
      CrashBackoffSchedule(State(s.triedRequirements, s.loops + 1), rest);
      CrashBelowLimit(s, script);
    } else {
      CrashAtLimit(s, script);
    }
  }

  /** Below the limit, a crash with a restart signal sleeps `Backoff(loops + 1)` and goes round again. */
  lemma CrashBelowLimit(s: State, script: seq<Attempt>)
    requires |script| > 0 && CrashedWithRestart(script[0]) && s.loops <= CrashLoopLimit
    ensures var t := Run(State(s.triedRequirements, s.loops + 1), script[1..]);
            Run(s, script) == Trace(t.final, t.attempts + 1, t.installs, [Backoff(s.loops + 1)] + t.sleeps, t.ending)
  {
  }

  /** Past the limit, a crash that never reached `init_ok` ends the loop in `finally`. */
  lemma CrashAtLimit(s: State, script: seq<Attempt>)
    requires |script| > 0 && CrashedWithRestart(script[0]) && s.loops > CrashLoopLimit
    ensures Run(s, script) == Trace(s, 1, 0, [], Ended(CrashLoop))
  {
  }

  /** An attempt whose bot became ready, then returned or crashed with an ordinary exception, and asked to restart. */
  predicate ReadyWithRestart(a: Attempt) {
    a.instance == Some(Instance(true, true))
    && (a.outcome.Returned? || (a.outcome.RaisedException? && !IsLoginFailure(a.outcome.typeName)))
  }

  /**
   * A bot that becomes ready and keeps asking to restart is never given up on:
   * every attempt of the script is made, nothing is installed, and the i-th
   * sleep is `Backoff(loops + i + 1)`, growing by two seconds up to the cap.
   */
  lemma {:induction false} ReadyBotKeepsRestarting(s: State, script: seq<Attempt>)
    requires forall i :: 0 <= i < |script| ==> ReadyWithRestart(script[i])
    ensures var t := Run(s, script);
            && t.ending == StillRunning
            && t.attempts == |script|
            && t.installs == 0
            && t.final == State(s.triedRequirements, s.loops + |script|)
            && |t.sleeps| == |script|
            && forall i :: 0 <= i < |script| ==> t.sleeps[i] == Backoff(s.loops + i + 1)
    decreases |script|
  {
    if script != [] {
      var next := State(s.triedRequirements, s.loops + 1);
      var rest := script[1..];
      assert forall i :: 0 <= i < |rest| ==> ReadyWithRestart(rest[i]) by {
        forall i | 0 <= i < |rest| ensures ReadyWithRestart(rest[i]) {
          assert rest[i] == script[i + 1];
        }
      }
      ReadyBotKeepsRestarting(next, rest);
      ReadyStep(s, script);
      var t' := Run(next, rest);
      var t := Run(s, script);
      forall i | 0 < i < |script| ensures t.sleeps[i] == Backoff(s.loops + i + 1) {
        assert t.sleeps[i] == t'.sleeps[i - 1];
      }
    }
  }

  /** A ready bot that asks to restart sleeps `Backoff(loops + 1)` and goes round again. */
  lemma ReadyStep(s: State, script: seq<Attempt>)
    requires |script| > 0 && ReadyWithRestart(script[0])
    ensures var t := Run(State(s.triedRequirements, s.loops + 1), script[1..]);
            Run(s, script) == Trace(t.final, t.attempts + 1, t.installs, [Backoff(s.loops + 1)] + t.sleeps, t.ending)
  {
  }

  /**
   * An ImportError that the installer fixes is followed by exactly one more
   * attempt, with no sleep in between; when that attempt ends without a
   * restart signal the loop is over, after exactly one install.
   */
  lemma ImportErrorThenRecovery(first: Attempt, second: Attempt)
    requires first.outcome.RaisedImportError?
    requires first.install == ReturnCode(0) || first.install == NoReturnValue
    requires !second.outcome.RaisedImportError?
    requires !RestartRequested(second.instance)
    ensures Run(Initial, [first, second]).attempts == 2
    ensures Run(Initial, [first, second]).installs == 1
    ensures Run(Initial, [first, second]).sleeps == []
    ensures !Run(Initial, [first, second]).ending.StillRunning?
  {
  }

  /**
   * With no instance (the import failed, or the constructor raised) the loop
   * never sleeps and goes round again only through the install `continue`.
   */
  lemma NoInstanceNeverSleeps(s: State, a: Attempt)
    requires a.instance.None?
    ensures !Step(s, a).next.RetryAfter?
    ensures Step(s, a).next.RetryNow? ==> Step(s, a).installed
  {
  }
}

=== FILE: text.dfy ===
/**
 * String helpers shared by the model: ASCII case mapping (the model's reading of
 * Python's `str.lower`, `str.capitalize` and `str.casefold`), prefix and substring
 * tests, `str.replace`, `str.split(" ")` and decimal rendering of integers.
 */
module Text {

  /** Lower-cases one ASCII letter; every other character is unchanged. */
  function LowerChar(c: char): char {
    if 'A' <= c <= 'Z' then (c as int + 32) as char else c
  }

  /** Upper-cases one ASCII letter; every other character is unchanged. */
  function UpperChar(c: char): char {
    if 'a' <= c <= 'z' then (c as int - 32) as char else c
  }

  /** `s.lower()` restricted to ASCII letters. */
  function Lower(s: string): (r: string)
    ensures |r| == |s|
    ensures forall i :: 0 <= i < |s| ==> r[i] == LowerChar(s[i])
  {
    if s == [] then [] else [LowerChar(s[0])] + Lower(s[1..])
  }

  /** Two strings are equal up to ASCII letter case. */
  predicate EqualIgnoringCase(a: string, b: string) {
    |a| == |b| && forall i :: 0 <= i < |a| ==> LowerChar(a[i]) == LowerChar(b[i])
  }

  /** `s.capitalize()`: first character upper-cased, the rest lower-cased. */
  function Capitalize(s: string): (r: string)
    ensures |r| == |s|
    ensures |s| > 0 ==> r[0] == UpperChar(s[0])
    ensures forall i :: 0 < i < |s| ==> r[i] == LowerChar(s[i])
  {
    if s == [] then [] else [UpperChar(s[0])] + Lower(s[1..])
  }

  /** Against a lower-case text, equality up to case is equality after lower-casing. */
  lemma EqualIgnoringCaseLower(a: string, b: string)
    requires forall i :: 0 <= i < |b| ==> LowerChar(b[i]) == b[i]
    ensures EqualIgnoringCase(a, b) <==> Lower(a) == b
  {
    if Lower(a) == b {
      forall i | 0 <= i < |a| ensures LowerChar(a[i]) == LowerChar(b[i]) {
        assert Lower(a)[i] == LowerChar(a[i]);
      }
    }
  }

  /**
   * Appending is associative.  Kept as a lemma of its own: proved inside a
   * larger context, the sequence extensionality behind it gets expensive.
   */
  lemma AppendAssoc(x: string, y: string, z: string)
    ensures (x + y) + z == x + (y + z)
  {
  }

  /** `s.startswith(p)`. */
  predicate StartsWith(s: string, p: string) {
    |p| <= |s| && s[..|p|] == p
  }

  /** `sub in s`, decided by scanning from the left. */
  predicate Contains(s: string, sub: string)
    decreases |s|
  {
    StartsWith(s, sub) || (|s| > 0 && Contains(s[1..], sub))
  }

  /** `sub` occurs in `s` starting at offset `i`. */
  predicate OccursAt(s: string, sub: string, i: int) {
    0 <= i <= |s| - |sub| && s[i..i + |sub|] == sub
  }

  /** The scanning definition of `Contains` agrees with "`sub` occurs at some offset". */
  lemma ContainsIffOccurs(s: string, sub: string)
    ensures Contains(s, sub) <==> exists i :: OccursAt(s, sub, i)
  {
    if Contains(s, sub) {
      ContainsOccurs(s, sub);
    }
    if exists i :: OccursAt(s, sub, i) {
      var i :| OccursAt(s, sub, i);
      OccursContains(s, sub, i);
    }
  }

  lemma {:induction false} ContainsOccurs(s: string, sub: string)
    requires Contains(s, sub)
    ensures exists i :: OccursAt(s, sub, i)
    decreases |s|
  {
    if StartsWith(s, sub) {
      assert s[0..0 + |sub|] == s[..|sub|];
      assert OccursAt(s, sub, 0);
    } else {
      ContainsOccurs(s[1..], sub);
      var j :| OccursAt(s[1..], sub, j);
      assert s[j + 1..j + 1 + |sub|] == s[1..][j..j + |sub|];
      assert OccursAt(s, sub, j + 1);
    }
  }

  lemma {:induction false} OccursContains(s: string, sub: string, i: int)
    requires OccursAt(s, sub, i)
    ensures Contains(s, sub)
    decreases |s|
  {
    if i == 0 {
      assert s[..|sub|] == s[0..0 + |sub|];
      assert StartsWith(s, sub);
    } else {
      assert s[1..][i - 1..i - 1 + |sub|] == s[i..i + |sub|];
      OccursContains(s[1..], sub, i - 1);
    }
  }

  /** A text lacking the first character of `sub` does not contain `sub`. */
  lemma {:induction false} MissingFirstCharNotContained(s: string, sub: string)
    requires |sub| > 0 && sub[0] !in s
    ensures !Contains(s, sub)
    decreases |s|
  {
    if |s| > 0 {
      assert s[0] != sub[0];
      MissingFirstCharNotContained(s[1..], sub);
    }
  }

  /** `s.replace(pat, rep)`: every non-overlapping occurrence, scanning left to right. */
  function ReplaceAll(s: string, pat: string, rep: string): (r: string)
    requires |pat| > 0
    ensures forall c :: c in r ==> c in s || c in rep
    decreases |s|
  {
    if |s| < |pat| then s
    else if s[..|pat|] == pat then rep + ReplaceAll(s[|pat|..], pat, rep)
    else [s[0]] + ReplaceAll(s[1..], pat, rep)
  }

  /** A string with no occurrence of `pat` is returned unchanged by `ReplaceAll`. */
  lemma {:induction false} ReplaceAllAbsent(s: string, pat: string, rep: string)
    requires |pat| > 0
    requires !Contains(s, pat)
    ensures ReplaceAll(s, pat, rep) == s
    decreases |s|
  {
    if |s| >= |pat| {
      assert !StartsWith(s, pat);
      ReplaceAllAbsent(s[1..], pat, rep);
      assert [s[0]] + s[1..] == s;
    }
  }

  /**
   * A text that does not start with `w` still does not start with `w` after the
   * replacement, provided no character of `w` can begin the replacement text.
   */
  lemma {:induction false} ReplaceKeepsNonPrefix(s: string, pat: string, rep: string, w: string)
    requires |pat| > 0 && |rep| > 0 && |w| > 0
    requires rep[0] !in w
    requires !StartsWith(s, w)
    ensures !StartsWith(ReplaceAll(s, pat, rep), w)
    decreases |s|
  {
    var r := ReplaceAll(s, pat, rep);
    if |s| >= |pat| && s[..|pat|] == pat {
      assert r[0] == rep[0];
    } else if |s| >= |pat| && |r| >= |w| {
      var t := ReplaceAll(s[1..], pat, rep);
      assert r == [s[0]] + t;
      StartsWithCons(s, w);
      StartsWithCons(r, w);
      if s[0] == w[0] {
        ReplaceKeepsNonPrefix(s[1..], pat, rep, w[1..]);
        assert r[1..] == t;
      }
    }
  }

  /** Starting with a non-empty `w` is matching its first character, then the rest. */
  lemma StartsWithCons(x: string, w: string)
    requires |x| > 0 && |w| > 0
    ensures StartsWith(x, w) <==> x[0] == w[0] && StartsWith(x[1..], w[1..])
  {
    if |w| <= |x| {
      assert x[..|w|] == [x[0]] + x[1..][..|w| - 1];
      assert w == [w[0]] + w[1..];
    }
  }

  /**
   * When the pattern cannot start inside the replacement and the replacement
   * cannot start inside the pattern, no occurrence of the pattern survives.
   */
  lemma {:induction false} ReplaceLeavesNoPattern(s: string, pat: string, rep: string)
    requires |pat| > 0 && |rep| > 0
    requires pat[0] !in rep && rep[0] !in pat
    ensures !Contains(ReplaceAll(s, pat, rep), pat)
    decreases |s|
  {
    var r := ReplaceAll(s, pat, rep);
    if |s| >= |pat| {
      if s[..|pat|] == pat {
        var t := ReplaceAll(s[|pat|..], pat, rep);
        ReplaceLeavesNoPattern(s[|pat|..], pat, rep);
        ContainsIffOccurs(t, pat);
        assert r == rep + t;
        forall j | 0 <= j <= |r| - |pat| ensures !OccursAt(r, pat, j) {
          if j < |rep| {
            assert r[j] == rep[j];
            assert r[j..j + |pat|][0] != pat[0];
          } else {
            OccursInSuffix(rep, t, pat, j);
          }
        }
      } else {
        var t := ReplaceAll(s[1..], pat, rep);
        ReplaceLeavesNoPattern(s[1..], pat, rep);
        ContainsIffOccurs(t, pat);
        assert r == [s[0]] + t;
        ReplaceKeepsNonPrefix(s, pat, rep, pat);
        forall j | 0 <= j <= |r| - |pat| ensures !OccursAt(r, pat, j) {
          if j == 0 {
            assert r[0..0 + |pat|] == r[..|pat|];
          } else {
            OccursInSuffix([s[0]], t, pat, j);
          }
        }
      }
      ContainsIffOccurs(r, pat);
    } else {
      assert r == s;
      ContainsIffOccurs(r, pat);
    }
  }

  /** An occurrence past the end of `u` in `u + t` is an occurrence in `t`. */
  lemma OccursInSuffix(u: string, t: string, pat: string, j: int)
    requires |u| <= j
    ensures OccursAt(u + t, pat, j) <==> OccursAt(t, pat, j - |u|)
  {
    if j + |pat| <= |u| + |t| {
      assert (u + t)[j..j + |pat|] == t[j - |u|..j - |u| + |pat|];
    }
  }

  /**
   * `ReplaceAll` rewrites the first occurrence of the pattern and carries on
   * after it: when `pat` first occurs right after `a`, the result is `a`, the
   * replacement, then the rest replaced.  With `ReplaceAllAbsent` this pins
   * the result for every input.
   */
  lemma {:induction false} ReplaceAtFirstOccurrence(a: string, pat: string, rep: string, b: string)
    requires |pat| > 0
    requires !Contains(a + pat[..|pat| - 1], pat)
    ensures ReplaceAll(a + pat + b, pat, rep) == a + rep + ReplaceAll(b, pat, rep)
    decreases |a|
  {
    var s := a + pat + b;
    if a == [] {
      assert s[..|pat|] == pat && s[|pat|..] == b;
    } else {
      var u := a + pat[..|pat| - 1];
      assert s[..|pat|] == u[..|pat|];
      assert !StartsWith(u, pat) && !Contains(u[1..], pat);
      assert u[1..] == a[1..] + pat[..|pat| - 1];
      assert s[1..] == a[1..] + pat + b;
      ReplaceAtFirstOccurrence(a[1..], pat, rep, b);
      assert [s[0]] + (a[1..] + rep + ReplaceAll(b, pat, rep)) == a + rep + ReplaceAll(b, pat, rep);
    }
  }

  /** Replacing one character by another is a character-by-character map. */
  lemma {:induction false} ReplaceCharIsMap(s: string, a: char, b: char)
    ensures |ReplaceAll(s, [a], [b])| == |s|
    ensures forall i :: 0 <= i < |s| ==>
              ReplaceAll(s, [a], [b])[i] == (if s[i] == a then b else s[i])
    decreases |s|
  {
    if |s| > 0 {
      ReplaceCharIsMap(s[1..], a, b);
      assert s[..|[a]|] == [s[0]];
    }
  }

  /** `sep.join(parts)`. */
  function Join(parts: seq<string>, sep: string): string
    decreases |parts|
  {
    if parts == [] then ""
    else if |parts| == 1 then parts[0]
    else parts[0] + sep + Join(parts[1..], sep)
  }

  /** `s.split(" ")`: Python splits on every single space, keeping empty fields. */
  function SplitOnSpace(s: string): (parts: seq<string>)
    ensures |parts| >= 1
    ensures forall i :: 0 <= i < |parts| ==> ' ' !in parts[i]
    decreases |s|
  {
    if s == [] then [""]
    else
      var rest := SplitOnSpace(s[1..]);
      if s[0] == ' ' then [""] + rest
      else [[s[0]] + rest[0]] + rest[1..]
  }

  /** Splitting on spaces and joining with a space gives back the original text. */
  lemma {:induction false} JoinSplit(s: string)
    ensures Join(SplitOnSpace(s), " ") == s
    decreases |s|
  {
    if s != [] {
      var rest := SplitOnSpace(s[1..]);
      JoinSplit(s[1..]);
      if s[0] == ' ' {
        assert SplitOnSpace(s) == [""] + rest;
        assert ([""] + rest)[1..] == rest;
      } else {
        var parts := SplitOnSpace(s);
        assert parts == [[s[0]] + rest[0]] + rest[1..];
        if |rest| == 1 {
          assert Join(rest, " ") == rest[0];
        } else {
          assert parts[1..] == rest[1..];
          assert Join(rest, " ") == rest[0] + " " + Join(rest[1..], " ");
        }
      }
    }
  }

  /** Joining space-free fields with a space and splitting again gives back the fields. */
  lemma {:induction false} SplitJoin(parts: seq<string>)
    requires |parts| >= 1
    requires forall i :: 0 <= i < |parts| ==> ' ' !in parts[i]
    ensures SplitOnSpace(Join(parts, " ")) == parts
    decreases |parts|, |parts[0]|
  {
    var p := parts[0];
    if p == [] {
      if |parts| > 1 {
        var rest := Join(parts[1..], " ");
        assert Join(parts, " ") == [' '] + rest;
        SplitCons(' ', rest);
        SplitJoin(parts[1..]);
        assert [""] + parts[1..] == parts;
      }
    } else {
      var tail := [p[1..]] + parts[1..];
      assert tail[0] == p[1..] && tail[1..] == parts[1..];
      forall i | 0 <= i < |tail|
        ensures ' ' !in tail[i]
      {
        if i == 0 {
          assert forall c :: c in p[1..] ==> c in p;
        } else {
          assert tail[i] == parts[i];
        }
      }
      SplitJoin(tail);
      var jt := Join(tail, " ");
      assert Join(parts, " ") == [p[0]] + jt by {
        if |parts| == 1 {
          assert jt == p[1..];
        } else {
          assert jt == p[1..] + " " + Join(parts[1..], " ");
        }
        assert [p[0]] + p[1..] == p;
      }
      assert p[0] in p && p[0] != ' ';
      assert SplitOnSpace(jt) == tail;
      SplitCons(p[0], jt);
      assert SplitOnSpace([p[0]] + jt) == [[p[0]] + p[1..]] + parts[1..];
      assert [[p[0]] + p[1..]] + parts[1..] == parts by {
        assert [p[0]] + p[1..] == p;
      }
    }
  }

  /** Splitting a text that starts with `c`: a space opens a new field, anything else extends the first. */
  lemma SplitCons(c: char, rest: string)
    ensures var r := SplitOnSpace(rest);
            SplitOnSpace([c] + rest) == if c == ' ' then [""] + r else [[c] + r[0]] + r[1..]
  {
    assert ([c] + rest)[1..] == rest;
  }

  /** The character of one decimal digit. */
  function DigitChar(d: nat): char
    requires d < 10
  {
    ('0' as int + d) as char
  }

  /** The value of one decimal digit character. */
  function DigitValue(c: char): nat
    requires IsDigit(c)
  {
    c as int - '0' as int
  }

  predicate IsDigit(c: char) {
    '0' <= c <= '9'
  }

  /** `str(n)` for a natural number: its shortest decimal spelling. */
  function NatToDecimal(n: nat): (r: string)
    ensures |r| >= 1
    ensures forall i :: 0 <= i < |r| ==> IsDigit(r[i])
    ensures r[0] == '0' ==> n == 0
    decreases n
  {
    if n < 10 then [DigitChar(n)] else NatToDecimal(n / 10) + [DigitChar(n % 10)]
  }

  /** `str(i)` for an integer, with a leading minus sign when negative. */
  function IntToDecimal(i: int): string {
    if i < 0 then "-" + NatToDecimal(-i) else NatToDecimal(i)
  }

  /** `int(s)` for a non-empty string of decimal digits. */
  function ParseDecimal(s: string): nat
    requires forall i :: 0 <= i < |s| ==> IsDigit(s[i])
    decreases |s|
  {
    if s == [] then 0 else ParseDecimal(s[..|s| - 1]) * 10 + DigitValue(s[|s| - 1])
  }

  /** Reading back the decimal spelling of `n` yields `n`. */
  lemma {:induction false} ParseNatToDecimal(n: nat)
    ensures ParseDecimal(NatToDecimal(n)) == n
    decreases n
  {
    if n >= 10 {
      var s := NatToDecimal(n);
      ParseNatToDecimal(n / 10);
      assert s[..|s| - 1] == NatToDecimal(n / 10);
    }
  }
}

=== FILE: wrappers.dfy ===
/** Option and Result: the model's stand-ins for Python's `None` and for raised exceptions. */
module Wrappers {

  datatype Option<+T> = None | Some(value: T)

  /** An operation that either produces a value or raises an error. */
  datatype Result<+R, +E> = Success(value: R) | Failure(error: E)
}
